=== FILE: README.md ===
# novel: WeChat event bus, QR login, group assistant and book assembly in Dafny

This project models the sequential core of goodio/novel. The program is a
WeChat web-client bot that scrapes novels and assembles them into books. The
model covers five parts:

- **Event bus** (`wechat/events.go`):
  - handler table keyed by cleaned paths (`cleanPath`, which uses Go's
    `path.Clean` rules);
  - longest literal-prefix handler selection (`isPathMatch`, `findMatch`);
  - registration (`Handle`);
  - the stop check of the dispatch loop (`Go`);
  - the decoders that turn one server update into bus events
    (`emitContactChangeEvent`, `emitNewMessageEvent`, `handleServerEvent`).
- **QR-code login handshake** (`wechat/login.go`), as a state machine over
  abstract inputs. Every network reply, cache-file read and presenter answer
  is an input. What the client does is recorded as an effect log. Covered:
  - `cachedInfo` and the resume branch;
  - `fetchUUID`;
  - `waitConfirmUUID` and the tip-carrying poll loop;
  - `login` with its `Ret` check and base-URL derivation;
  - `init`;
  - `keepAlive`'s retry counter.
- **Group assistant** (`assisant.go`):
  - the `search` extractor;
  - `handle`'s branches: welcome, sign-in, kick, census;
  - the `chatRoomMember` tally;
  - the `addFriend` / `acceptAddFriend` / `verifyUser` request.
- **Book assembly** (`download.go`):
  - chapter text formatting in `fetchContent`;
  - `fileMerge`: filter, numeric order and layout of the merged book.
- **Catalog crawler bookkeeping** (`catalogs.go`):
  - the existing-id set;
  - which ids are visited and in what order;
  - the `subid` derivation and the catalog URL;
  - the catalog URL matcher;
  - `read`'s fallback to a zero catalog.

## Module layout

| module | file | models |
|---|---|---|
| `Wrappers` | `wrappers.dfy` | `Option` and `Result` |
| `Strings` | `strings.dfy` | The Go library string functions the code calls: `strings.Index`, `Split`, `Replace`, `TrimSpace`, `TrimSuffix`, `LastIndex`, `path.Base`, `strconv.Itoa` and `Atoi`. Also the repository's own `search`. |
| `Paths` | `paths.dfy` | `cleanPath` and the lexical `path.Clean` rules |
| `Events` | `events.dfy` | the bus events and the server-update decoders |
| `Router` | `router.dfy` | matching, registration and the dispatch loop |
| `Login` | `login.dfy` | the login handshake and keep-alive |
| `Assistant` | `assistant.dfy` | the group assistant |
| `Download` | `download.dfy` | chapter formatting and `fileMerge` |
| `Catalogs` | `catalogs.dfy` | the crawler bookkeeping |

## Behaviour worth knowing

- **Dispatch does not clean paths.** Only `Handle` cleans a path before it
  registers it; `Go` matches the raw event path against the registered
  patterns. `Router.RawPathNotCleaned` shows an event that misses a handler
  because of this.
- **The "@me" test uses the whole message.** For a group message the test
  for the user's name runs on the whole content, before the sender prefix is
  split off (`Events.NewMessageEvent`).
- **`keepAlive` never resets its retry counter.** A failure waits
  `retryTimes` minutes and then increments the counter, and no path resets
  it, not even a success. `Login.KeepAliveNeverResets` shows this.
- **Ties in `findMatch` cannot happen.** Two equal-length patterns that both
  prefix the same path are the same string, so the map's iteration order
  never changes the result (`Router.LongestMatchUnique`).
- **A half-decoded data file is recorded.** When `read` hits a JSON type
  error in a file whose id was decoded, it removes the file but still returns the
  id, so the crawler neither keeps the file nor visits the book again
  (`Catalogs.PartialDecodeRecorded`).

## Model

| member | source | states |
|---|---|---|
| Paths.CleanPath | wechat/events.go:102-110 | The empty path becomes "/". Every result starts with "/", has no trailing "/" unless it is the root, and never holds "//". |
| Paths.Clean | wechat/events.go:109 | `path.Clean` of a rooted path starts with "/", has no trailing "/" unless it is the root, and never holds "//". |
| Paths.Elements | wechat/events.go:109 | The elements surviving `path.Clean` contain no "", ".", ".." and no slash. |
| Paths.Resolve | wechat/events.go:109 | Walking the elements of a path leaves only proper names on the stack. |
| Paths.ResolveSnoc | wechat/events.go:109 | The walk over one more element is the walk so far followed by one step: "" and "." are dropped, ".." pops the last name (and is dropped at the root), anything else is pushed. |
| Paths.ElementsRooted | wechat/events.go:109 | The elements `path.Clean` keeps of "/" followed by proper names joined with "/" are exactly those names. |
| Paths.ElementsStep | wechat/events.go:109 | Appending "/" and a slash-free element to any path applies one step to its cleaned elements. |
| Paths.CleanPathStep | wechat/events.go:102-110 | cleanPath of a rooted path extended by "/" and an element is the rooted path of the prefix's elements after that element's step. |
| Paths.CleanRootedStep | wechat/events.go:102-110 | cleanPath of a clean rooted path extended by one element is the rooted path of its names after that element's step. |
| Paths.CleanPathParent | wechat/events.go:102-110 | ".." removes the last name: cleanPath("/a/b/..") is "/a", for any names. |
| Paths.CleanPathRootParent | wechat/events.go:102-110 | ".." at the root stays at the root: cleanPath("/..") is "/". |
| Paths.CleanPathDot | wechat/events.go:102-110 | A trailing "." is dropped: cleanPath("/a/.") is "/a", for any names. |
| Paths.CleanPathDoubleSlash | wechat/events.go:102-110 | A doubled slash collapses: cleanPath("/a//b") is "/a/b", for any names. |
| Paths.ResolveNames | wechat/events.go:109 | Proper names pass through the walk unchanged. |
| Paths.CleanRooted | wechat/events.go:102-110 | A rooted path of proper names is a fixed point of cleanPath. |
| Paths.CleanPathIdempotent | wechat/events.go:102-110 | cleanPath(cleanPath(p)) == cleanPath(p) for every p. |
| Paths.CleanPathElements | wechat/events.go:102-110 | A cleaned path is "/" or splits on "/" into "" and then only proper names: no empty element, no "." and no "..". |
| Router.IsPathMatch | wechat/events.go:112-118 | True exactly when the pattern is non-empty and a literal prefix of the path. |
| Router.MatchIgnoresSegments | wechat/events.go:112-118 | "/msg" matches "/msgx" and "/msg/solo"; "" matches nothing; a longer pattern does not match a shorter path. |
| Router.FindMatch | wechat/events.go:120-133 | Whatever order the keys are scanned in, the result is "" exactly when no registered pattern matches, and otherwise a registered matching pattern with no longer matching one. |
| Router.LongestMatchUnique | wechat/events.go:120-133 | Two longest matches are equal, so the map's iteration order cannot change the handler chosen. |
| Router.Handle | wechat/events.go:173-175 | The table gains the cleaned path as a key, maps it to the new handler, and every other entry is unchanged. |
| Router.HandleEquivalentOverwrites | wechat/events.go:173-175 | Registering two paths with the same cleaned form leaves the table as if only the later registration had been made. |
| Router.HandleCleaned | wechat/events.go:173-175 | Registering under an already cleaned path gives the same table as registering under the raw path. |
| Router.HandleKeepsKeysClean | wechat/events.go:173-175 | If every key of the table is in clean form, it stays so after Handle. |
| Router.BeforeStop | wechat/events.go:143-147 | The loop sees the prefix of the stream before the first "/sig/stoploop" event, and stops exactly at that event. |
| Router.Route | wechat/events.go:148-154 | An event goes to the handler of its longest matching pattern, and to no handler exactly when no pattern matches. |
| Router.Run | wechat/events.go:140-159 | Every event before the stop event is dispatched on its raw path to its longest-match handler, one dispatch per event, in stream order. |
| Router.CleanMsgSolo | wechat/events.go:102-110 | cleanPath("msg/solo") is "/msg/solo". |
| Router.RawPathNotCleaned | wechat/events.go:148-154 | With "/msg" registered, the raw path "msg/solo" reaches no handler although its cleaned form would. |
| Events.ContactChangeEvent | wechat/events.go:260-278 | The path is "/contact/del" exactly for a deletion and "/contact/mod" exactly otherwise; the event carries the change type and contact. |
| Events.GroupUserName | wechat/events.go:287-292 | The group is the sender if it starts with "@@", else the recipient if that does, else none. |
| Events.MediaRoute | wechat/events.go:303-317 | Images (type 3) and stickers that are not product cards (type 47 with HasProductId 0) download from webwxgetmsgimg, voice (34) from webwxgetvoice, video (43) from webwxgetvideo, and only those. |
| Events.MediaTypes | wechat/events.go:305-321 | Types 3, 34 and 43 are media; type 47 only when HasProductId is 0; no other type. |
| Events.AtMeNeedle | wechat/events.go:324-329 | The mention is "@" and the display name, or the nick name when there is no display name. |
| Events.NewMessageEvent | wechat/events.go:280-374 | A message is a group message exactly when either side starts with "@@". Its event goes to "/msg/group" or "/msg/solo" accordingly. IsSendedByMySelf holds exactly when the sender is the user. The message is media exactly when a media route exists, and then its media URL is the base URL, "/", the route, "?msgid=", the message id, "&" and the skey pair. AtMe holds exactly for group messages from others whose content contains the mention. Only group messages from others are ever dropped. |
| Events.OwnAndSoloMessagesPublished | wechat/events.go:323-346 | A solo message, or a group message the user sent, is always published with its content and sender untouched. |
| Events.MalformedGroupMessageDropped | wechat/events.go:332-335 | A group message from someone else whose content does not split into exactly two pieces on ":<br/>" is dropped without a roster reload. |
| Events.GroupMessageSender | wechat/events.go:332-346 | A two-piece group message is sender + ":<br/>" + text with no other separator. An unknown sender drops it and force-reloads the group. A known sender publishes the text after the separator, attributed to the contact's user name. |
| Events.DeletedContactEvents | wechat/events.go:380-384 | One "/contact/del" event per deleted name, carrying a contact with only that user name. |
| Events.KnownNames | wechat/events.go:387-390 | The names kept are exactly those found in the contact table, never more than given; a single name is kept exactly when it is in the table. |
| Events.KnownNamesAppend | wechat/events.go:387-390 | Filtering a concatenation is the concatenation of the filtered parts, so with the one-name case the kept names stay in list order. |
| Events.ModifiedContactEvents | wechat/events.go:386-393 | The k-th event is the "/contact/mod" event carrying the contact stored under the k-th name found in the contact table, in the order of the names; names not in the table give no event. |
| Events.AllKnownModified | wechat/events.go:386-393 | When every name is in the contact table, there is one modification event per name. |
| Events.Published | wechat/events.go:395-399 | The kept messages are exactly those whose delivery is a publication. |
| Events.EventsOf | wechat/events.go:395-399 | There is one event per published message, in order, and each is that message's published event. |
| Events.MessageEvents | wechat/events.go:395-399 | The k-th event is the event the decoder publishes for the k-th published message, in order; dropped messages give no event. Every event is on "/msg/group" or "/msg/solo". |
| Events.ServerEvents | wechat/events.go:376-400 | The events are the deletion events, then the modification events, then the message events. Each part is present only when its reported count is positive, and empty otherwise. Every event is on one of the four bus paths. |
| Events.QuietUpdate | wechat/events.go:376-400 | An update whose three counts are all zero or negative publishes nothing. |
| Events.OnBusConcat | wechat/events.go:376-400 | Appending the three lists keeps every event on the bus paths, and each list can be read back from its own slice of the result. |
| Login.CachedInfo | wechat/login.go:120-165 | An unreadable base-info file is returned as its error. A "baseRequest" entry that is not an object panics. Otherwise the cache is usable exactly when the base info has three keys and the cookie list is non-empty; three keys with missing or empty cookies is the cookie error, other key counts the base-info error. A usable cache keeps the keys and the cookies, and its base request takes DeviceID, Skey and Sid when they are strings, the top-level pass ticket, and the float Uin truncated toward zero, or 0 when Uin is not a number. |
| Login.Truncate | wechat/login.go:144-146 | The float-to-integer conversion drops the fraction toward zero: the result is within one of the number, on its side of 0. |
| Login.FetchUUID | wechat/login.go:167-206 | Succeeds exactly when the code field is "200" and the uuid field is present, and returns the uuid field; a code other than 200 is reported as that code; a transport error is passed on. |
| Login.FetchUUIDRefusesCode | wechat/login.go:189-198 | A jslogin reply opening with a code other than 200 is refused with that code. |
| Login.FetchUUIDAccepts | wechat/login.go:189-205 | A jslogin reply opening with code 200 yields its uuid field. |
| Login.WaitConfirm | wechat/login.go:208-242 | A failed request, read or code parse returns the input tip; once the code is parsed the tip is 0. "201" gives no error and no redirect; "200" gives the redirect field with "&fun=new" appended, or its search error; any other code is a timeout error. |
| Login.WaitConfirmScanned | wechat/login.go:223-231 | A "201" reply yields the poll ("", "201", 0, no error) whatever tip was sent. |
| Login.WaitConfirmTimeout | wechat/login.go:223-240 | A reply with any other code is a timeout whatever the tip: no redirect, tip 0, the code in the code field, and an error that carries no code (Go formats a nil error into it). |
| Login.PollContinuesOnlyOn201 | wechat/login.go:100-106 | A poll that neither fails nor answers 200 is a "201" asking for tip 0. |
| Login.WaitConfirmWellBehaved | wechat/login.go:228-240 | waitConfirmUUID never lets the loop continue on a code other than 201, and a successful 200 carries a redirect ending in "&fun=new". |
| Login.ConfirmLoop | wechat/login.go:98-106 | The loop polls first with the given tip, then always with tip 0. Every poll but the last answered 201. It makes at most one poll per reply. It runs out exactly when all replies were used and the last did not end it. It confirms exactly when the last poll ended the loop without an error, and the redirect is that poll's, ending in "&fun=new". A failure carries the last poll's error. |
| Login.StatusPolls | wechat/login.go:98-106 | The handshake polls first with tip 1. A confirmation means the last reply answered 200 and the redirect ends in "&fun=new"; a failure carries the last reply's error. |
| Login.Prepend | wechat/login.go:100-106 | One more poll in front keeps the loop's ending and prefixes its tip. |
| Strings.LastIndexOf | wechat/login.go:268 | -1 exactly when the character does not occur; otherwise the position of an occurrence with none after it. |
| Login.BaseURLOf | wechat/login.go:267-273 | The base URL is the login URL up to, not including, its last "/", or the whole URL when it has none. |
| Login.BaseURLOfJoin | wechat/login.go:267-273 | Cutting "dir/page" at its last "/" gives back "dir". |
| Login.DoLogin | wechat/login.go:244-278 | A failed reply is passed on with the session unchanged. A decoded reply overwrites Ret, Message, Skey, Sid, Uin and the pass ticket of the base request and keeps the device id, the user, the sync key and the cookies. A non-zero Ret is rejected with the message, leaving the base URL unchanged and writing no cache. Otherwise the base URL is derived from the URL, the base info is written, and the cookie cache is written exactly when the reply has cookies. |
| Login.Init | wechat/login.go:280-308 | Failure leaves the session unchanged and reports the error. Success takes the new skey, the user and the sync key, and keeps the base URL. |
| Login.PollRequests | wechat/login.go:100-101 | One poll request per poll, carrying its tip. |
| Login.BeginLoginFlow | wechat/login.go:54-118 | The flow always starts by reading the cache; a cache whose base request is not an object panics right there. |
| Login.ResumeCached | wechat/login.go:60-79 | The resume branch only reads the cache, calls init and possibly deletes the cookie cache. A base URL that is not a string panics, one that does not parse fails with it, a failed init fails with its error and deletes the cookie cache. It logs in exactly when the URL is a string that parses and init succeeds, and then holds the cached URL, cookies and base request with init's skey and user. |
| Login.QRLogin | wechat/login.go:81-117 | The interactive branch never deletes the cookie cache. A failed uuid fetch ends with its error after the fetch; a refusing presenter ends with its refusal after the presenter call; otherwise the ending is that of step 3 onwards. |
| Login.Confirm | wechat/login.go:98-117 | Step 3 onwards never deletes the cookie cache. Running out of polls ends without a verdict, a failed poll ends with its error, and it logs in exactly when the polls confirm and the login request and init succeed. |
| Login.ConfirmAfter | wechat/login.go:98-117 | The log opens with the poll requests. Running out of polls stops there. A failed poll adds one presenter call with its error and ends with it. A confirmation adds the presenter call without error, then (if the redirect URL parses) the login request right after it, and ends as the login request and init do; it logs in exactly when confirmed and those succeed. |
| Login.Finish | wechat/login.go:110-117 | A redirect URL that does not parse panics with no request. Otherwise the login request and init start with the login request, never call the presenter and never delete the cookie cache. A failed login reply, a non-zero Ret and a failed init each end the flow with their own error; it logs in exactly when none of these happens, ending with init, on the redirect's base URL and with init's user and skey. |
| Login.LoginFlowEnding | wechat/login.go:54-118 | The whole flow logs in exactly when the cached session resumes, or the interactive steps are reached, the polls confirm and the login request and init succeed. Once polling is reached, a failed poll ends with its error, running out of polls ends without a verdict, and an unparsable redirect panics. |
| Login.ConfirmationsAppend | wechat/login.go:103-108 | Presenter calls of two joined logs add up. |
| Login.NoConfirmations | wechat/login.go:103-108 | A log without presenter calls counts none. |
| Login.ConfirmCallsPresenterOnce | wechat/login.go:98-108 | Step 3 calls UUIDDidConfirm once unless the polls ran out, and with no error exactly when confirmed. |
| Login.ConfirmAfterCallsPresenterOnce | wechat/login.go:98-108 | Whatever way the poll loop ended, the steps after it call the presenter once, unless the polls ran out, and without an error exactly on a confirmation. |
| Login.NoPollingNoConfirm | wechat/login.go:58-95 | A usable cache, a failed uuid fetch or a refusing presenter means UUIDDidConfirm is never called. |
| Login.PollingFlow | wechat/login.go:83-108 | Reaching the polls, the log is cache read, uuid fetch, ProcessUUID, then step 3 onwards. |
| Login.ConfirmExactlyOnce | wechat/login.go:54-118 | UUIDDidConfirm is called exactly once when polling ends by success or failure, and never otherwise. |
| Login.PollingConfirmations | wechat/login.go:83-108 | Reaching the polls, the presenter calls are those of step 3 onwards. |
| Login.OpeningConfirmations | wechat/login.go:83-95 | The opening steps make no presenter call. |
| Login.ConfirmSuccessReported | wechat/login.go:98-108 | UUIDDidConfirm(nil) is called exactly when the polls reached and confirmed the scan. |
| Login.CacheSkipsQRCode | wechat/login.go:58-79 | With a usable cache, fetchUUID, ProcessUUID, the polls and the presenter are never called. A failed init then deletes the cookie cache and returns the init error. |
| Login.CookieCacheDeletedOnlyOnResume | wechat/login.go:58-79 | The cookie cache is deleted exactly when a usable cache with a string base URL that parses is resumed and init fails. |
| Login.PollTips | wechat/login.go:98-106 | The first status poll carries tip 1, every later one tip 0, and they follow ProcessUUID directly. |
| Login.OpeningThenPolls | wechat/login.go:83-101 | The opening effects followed by poll requests place the polls from index 3. |
| Login.ConfirmStartsWithPolls | wechat/login.go:98-106 | Step 3 onwards opens with one poll request per poll made. |
| Login.Failures | wechat/login.go:313-323 | Counts failed re-login attempts, at most one per attempt. |
| Login.KeepAlive | wechat/login.go:310-347 | The k-th failure waits retryTimes + k minutes, and the counter ends increased by the number of failures. Each success sends 1 and then -1 on the login-state channel. |
| Login.KeepAliveNeverResets | wechat/login.go:315-343 | Failure, success, failure waits n and then n + 1 minutes: the success does not reset the counter. |
| Strings.Search | assisant.go:190-208 | The prefix missing fails with the prefix. The suffix missing after the first prefix fails with the suffix. On success, prefix + result + suffix occurs at the first prefix index, and the suffix right after the result is the first one there. |
| Strings.SearchResultHasNoSuffix | assisant.go:199-205 | The extracted text contains no occurrence of a non-empty suffix. |
| Strings.SearchRoundTrip | assisant.go:190-208 | Text placed between the prefix and the first suffix at the start of the source is extracted back. |
| Strings.IndexOf | assisant.go:192 | strings.Index: -1 exactly when the needle is absent, otherwise its first occurrence. |
| Strings.Split | wechat/events.go:332 | strings.Split always yields at least one piece. |
| Strings.SplitJoin | wechat/events.go:332 | Joining the pieces of a split with the separator gives back the input. |
| Strings.SplitPiecesAbsent | wechat/events.go:332 | No piece of a split contains the separator. |
| Strings.SplitInTwo | wechat/events.go:332-346 | A two-piece split is first piece + separator + second piece, separator at its first occurrence, neither piece holding it. |
| Strings.ReplaceAllRemoves | download.go:169-170 | Replacing with a text sharing no character with the pattern leaves no occurrence of the pattern. |
| Strings.ReplaceAll | download.go:169-170 | Replacing with text of the same length keeps the length; a shorter replacement never makes the text longer. |
| Strings.ReplaceAllKeepsOut | download.go:169-170 | Replacing never introduces a character found in neither the input nor the replacement. |
| Strings.ReplaceAllAbsent | download.go:169-170 | Text without the pattern comes back unchanged. |
| Strings.ReplaceAllSplitJoin | download.go:169-170 | Replacing every occurrence equals splitting on the pattern and joining the pieces with the replacement. |
| Strings.TrimSpace | download.go:165 | The result is a slice of the input with only white space cut on either side, and it neither starts nor ends with white space. |
| Strings.Base | download.go:236 | path.Base is never empty, "." for "", and "/" or slash-free. |
| Strings.TrimSuffix | download.go:261-262 | With the suffix present, the result followed by the suffix is the input; without it, the input is unchanged. |
| Strings.BaseOfJoin | download.go:236-238 | The base of "dir/name" is name. |
| Strings.Atoi | download.go:261-262 | strconv.Atoi fails exactly on text that is not an optional sign and at least one digit. |
| Strings.AtoiItoa | download.go:261-262 | Atoi reads back the numeral Itoa writes. |
| Strings.Itoa | catalogs.go:284 | The numeral is non-empty, all decimal digits, and has no leading zero unless the number is 0. |
| Strings.ItoaLength | catalogs.go:287 | The numeral of n has more than k digits exactly when n >= 10^k. |
| Assistant.Greeting | assisant.go:26-37 | At most one reply is sent, always to the group the message came from. A reply is sent exactly when the message is a join notice or contains "签到". A join notice always gets the welcome, even when the name cannot be extracted (then the name is ""). Any other message containing "签到" gets the sender's sign-in reply. |
| Assistant.WelcomeExcludesSignIn | assisant.go:28-37 | A join notice that also contains "签到" gets only the welcome, not the sign-in reply. |
| Assistant.Farewell | assisant.go:48-55 | A matching member gets exactly: the farewell text after its nick name in the group, a 3-second pause, the removal request for that member, and then, only if the removal fails, the apology in the group. |
| Assistant.KickActions | assisant.go:46-56 | No member with the target nick name means no action, and a kick never counts members. |
| Assistant.KickRemovesOnlyTargets | assisant.go:42-56 | A kick removes only members whose nick name is the target, and only from the group the command was sent to. |
| Assistant.KickRemovesAllTargets | assisant.go:46-56 | A kick removes every member whose nick name is the target. |
| Assistant.ReplaceFirst | assisant.go:44 | Without the pattern the text is unchanged. Otherwise the text before the first occurrence is kept, the replacement takes the pattern's place, the rest follows, and the length changes by the difference. |
| Assistant.ReplaceFirstOfPrefix | assisant.go:44 | On a command starting with the keyword, replacing its first occurrence leaves the rest of the command. |
| Assistant.Kick | assisant.go:40-58 | Only the user's own "滚蛋" messages kick, and only when the roster is available; the target is the text after the keyword. |
| Assistant.Handle | assisant.go:25-68 | Non-group messages get nothing. A group message gets the greeting, then the kick actions, then the census request, in that order. The census is requested exactly when the message mentions the user and contains "统计人数". |
| Assistant.HandleRemovesOnlyOnCommand | assisant.go:40-56 | A member is removed only on the user's own group message starting with "滚蛋", when the roster was fetched. The removal is in the group the message was sent to, and the member's nick name is the rest of the command. |
| Assistant.CountSex | assisant.go:108-121 | Each member adds at most one to the count of a sex code, so the count is at most the number of members. |
| Assistant.CountSexExtremes | assisant.go:108-121 | The count is all of the members when every member is known with that sex code, and zero when none is. |
| Assistant.ChatRoomMember | assisant.go:97-130 | A roster error is returned as it is. A member missing from the contact table ends the census in the nil-dereference outcome, and only then. Otherwise man counts the members with sex 1, woman those with sex 2, and man + woman + none equals the member count. |
| Assistant.VerifyUser | assisant.go:142-172 | The request carries the given opcode, user name and content, an empty ticket, list size 1, scene count 1 and scene 33. |
| Assistant.AddFriend | assisant.go:132-134 | addFriend uses opcode 2. |
| Assistant.AcceptAddFriend | assisant.go:137-139 | acceptAddFriend uses opcode 3. |
| Assistant.AddAndAcceptDifferOnlyInOpcode | assisant.go:132-139 | The two requests are identical apart from the opcode. |
| Download.FormatChapter | download.go:165-172 | The chapter text opens with "### ", the trimmed title and a newline, and closes with the processed article and a blank line, with nothing else in between. |
| Download.FormatPlainChapter | download.go:165-172 | For a title without surrounding white space and an article with no "<br/>" or non-breaking space, the text is exactly "### " + title + "\n" + article + "\n\n". |
| Download.ChapterBody | download.go:169-170 | After the two replacements no "<br/>" and no non-breaking space remain. |
| Download.ChapterBodySplitJoin | download.go:169-170 | The body is the article split on the non-breaking space and joined with a space, then split on "<br/>" and joined with a newline. |
| Download.ChapterBodyPlain | download.go:169-170 | An article without either marker is written unchanged. |
| Download.ChapterFiles | download.go:252-258 | Every kept entry is a non-directory whose path ends in ".rbx". |
| Download.ChapterFilesFromWalk | download.go:252-258 | Kept entries come from the walk, no more often than visited. |
| Download.ChapterFilesCounts | download.go:252-258 | Each chapter file is kept exactly as often as the walk visited it; no other entry is kept. |
| Download.ChapterFilesKeeps | download.go:252-258 | No chapter file of the walk is skipped. |
| Download.ChapterFilesMembers | download.go:252-258 | The kept entries are exactly the walk's non-directory ".rbx" entries. |
| Download.ChapterPath | download.go:174 | The path is the book directory, "/", the digits captured from the chapter URL as written, and ".rbx"; the digits can be read back from between them. |
| Download.ChapterKey | download.go:261-262 | A file name that is not a numeral after dropping ".rbx" gets key 0, because the Atoi error is ignored. A name of plain digits gets a key of at least 0. |
| Download.ChapterKeyOfPath | download.go:261-262 | The sort key of a chapter file's path is the decimal value of the digits it was written under, leading zeros ignored. |
| Download.ChapterKeyOfId | download.go:261-262 | A chapter written under the numeral of an id sorts under that id. |
| Download.Header | download.go:248 | The book opens with "## ", the name, and three newlines. |
| Download.Insert | download.go:260-264 | Inserting into a key-sorted list keeps it sorted and adds one entry. |
| Download.InsertPermutes | download.go:260-264 | Insertion adds the entry and loses nothing. |
| Download.SortChapters | download.go:260-264 | The result is in ascending key order and has the input's length. |
| Download.SortChaptersPermutes | download.go:260-264 | The sorted chapters are a permutation of the input. |
| Download.Chapters | download.go:266-293 | A non-empty chapter list ends with a blank line. |
| Download.ChaptersAppend | download.go:266-293 | Each chapter contributes its bytes followed by "\n\n", in order. |
| Download.FileMerge | download.go:235-298 | The book goes to base(root) + ".txt" in root. It starts with "## " + base + "\n\n\n", then the chapter files in ascending key order, each followed by a blank line. The chapters are exactly the walk's non-directory ".rbx" entries, each as often as visited. |
| Catalogs.Read | catalogs.go:300-317 | The data file is removed exactly when it cannot be read or decoded. An unreadable file or a JSON syntax error gives the zero catalog (id 0). A JSON type error gives the partly decoded catalog. Otherwise the decoded catalog is returned. |
| Catalogs.ExistingIds | catalogs.go:262-279 | An id is recorded exactly when it is in 1..57260 and some data file holds a catalog with it; 0 is never recorded. |
| Catalogs.FailedReadNeverRecorded | catalogs.go:269-278 | When every data file is unreadable or not JSON, no id is recorded. |
| Catalogs.PartialDecodeRecorded | catalogs.go:262-317 | A data file with a JSON type error whose id was decoded is removed, yet its id is recorded and never visited again. |
| Catalogs.Visits | catalogs.go:281-294 | The visits are exactly the ids from the start down to 1 with no saved catalog, in strictly descending order. |
| Catalogs.VisitOrder | catalogs.go:281-283 | An id is visited exactly when it is in 1..39293 and not in the existing set. |
| Catalogs.SubId | catalogs.go:284-289 | The subid is "0" for ids of three digits or fewer, otherwise the numeral of id / 1000. |
| Catalogs.VisitURL | catalogs.go:291 | The catalog URL is the site prefix, the subid and "/", then the id's numeral and "/". |
| Catalogs.ItoaDropThree | catalogs.go:287-288 | Dropping the last three digits of a numeral of at least four digits gives the numeral of n / 1000. |
| Catalogs.SubIdZero | catalogs.go:284-289 | The subid is "0" exactly for ids below 1000. |
| Catalogs.DigitRun | catalogs.go:181 | The length of the leading run of decimal digits. |
| Catalogs.ParseCatalogURL | catalogs.go:181-192 | A match means the URL is exactly the site prefix, a non-empty digit run (the subid returned), "/", a non-empty digit run whose decimal value is the id returned, and an optional "/". |
| Catalogs.ParseCatalogPath | catalogs.go:181-192 | After the prefix, a match is exactly a digit run (the subid), "/", a digit run read as the id, and an optional "/". |
| Catalogs.ParseCatalogPathOf | catalogs.go:181-192 | After the prefix, digits "/" digits with an optional "/" is accepted and both runs are read back. |
| Catalogs.ParseVisitURL | catalogs.go:186-192 | The catalog callback reads back the subid and id that the visit loop put into the URL. |

## Left out

- Concurrency in `wechat/events.go` is not modelled. This covers `merge`,
  the WaitGroup, `Stop`, the RWMutex, the goroutine per dispatch and the
  `go` launches in `handleServerEvent`. The model keeps launch order; it
  makes no delivery-order claim.
- Router.Run: the optional hook is not modelled, and neither is handler
  invocation. A dispatch records which handler the event goes to.
  `ResetHandlers` and `Hook` are not modelled.
- Timers are not modelled: `newTimerCh`, `newTimingCh`, `AddTimer` and
  `AddTiming` depend on the wall clock.
- HTTP, JSON and XML decoding, cookie jars and cache files become inputs of
  the model: `World`, the `Result` arguments and the effect log.
  `cachedCookies`, `cachedBaseInfo`, `refreshBaseInfo` and
  `refreshCookieCache` are effects or inputs. `reLogin`'s client creation is
  not modelled.
- Login.HttpOK: the constant is defined in a wechat file that is not part
  of this model. It is taken to be "200", the protocol's success code.
- The `search` that `wechat/login.go` calls is defined in a file that is not
  part of this model. It is assumed to behave like `search` in
  `assisant.go`.
- Login.ConfirmLoop: the Go loop polls without bound. The model reads a
  finite list of replies, and running out of them is a separate ending
  (`PollsExhausted` / `OutOfPolls`).
- Login.DoLogin: when XML decoding fails part-way, Go may have filled in
  some base-request fields. The model leaves the session unchanged. A reply
  that decodes is taken to carry every field it overwrites; an element
  missing from the XML, which Go would leave at its old value, is not
  modelled.
- Login.Finish: the base URL is cut from the redirect text as received. Go
  cuts it from `req.URL.String()`, which can re-escape the URL; that
  re-encoding is not modelled.
- Login.Truncate: a Uin too large for an `int64` converts to an
  implementation-defined value in Go; the model keeps the exact integer.
- Login.KeepAlive: the starting value of `retryTimes` is set outside the
  modelled files, so it is a parameter. Errors from `SyncContact` are
  ignored, as in the code. The sync loop itself is one input per attempt.
- Go panics become explicit outcomes (`Panic` / `Panicked`): failed type
  assertions in `cachedInfo` and in the resume branch, and the nil request
  handed to the client when `http.NewRequest` rejects the redirect URL
  (`redirectParses` in `World`).
- Events.DeletedContactEvents: Go asserts each entry's `UserName` to a
  string without checking; an entry without one panics. The model takes
  the names as given.
- Events.ModifiedContactEvents: the same unchecked `UserName` assertion
  panics on a malformed entry; the model takes the names as given.
- Events.NewMessageEvent: the panics of unchecked type assertions on a
  malformed message, the float-to-int conversion of `MsgType` and the time
  stamp are not modelled. `ContactByUserName` is a lookup in the contact
  map.
- Assistant.Greeting: the sign-in reply looks up the sender's nick name
  through a total function, so Go's panic when the contact is nil is not
  modelled.
- Assistant.Kick: the `delMember` request becomes the `removeOk` input, and
  the 3-second sleep becomes a `Pause` action. `MembersOfGroup` is an input.
- `AutoAcceptAddFirendRequest` is not modelled. It only reads untyped
  message fields and calls `addFriend`, which is modelled.
- Download.SortChapters: the contract promises ascending keys and a
  permutation (`SortChaptersPermutes`), not an order for equal keys, because
  `sort.Slice` is not stable.
- Download.ChapterPath: the chapter URL is matched against the site's
  regular expression and the capture is used unchecked; a URL that does not
  match makes Go index a nil slice and panic. The model takes the captured
  digits as its input.
- Strings.Atoi: overflow and strconv's range error are not modelled. Values
  are unbounded integers.
- Strings.Base: Unix `path.Base` stands in for `filepath.Base`. The Windows
  separator is not modelled.
- Download.FileMerge: file opening, buffered reading and writing, and open
  errors that stop the merge half-way are not modelled. `filepath.Join` of
  the output is kept as a (directory, file name) pair. A walk error, where
  Go would dereference a nil `FileInfo`, is not modelled.
- Download.FileMerge: the output file is opened with `O_CREATE|O_WRONLY`
  and without `O_TRUNC`. When a longer book of the same name already
  exists, its old tail stays after the new text. The model describes only
  the bytes written from the start of the file.
- Events.MediaRoute: Go reads `HasProductId` as a JSON number (`float64`)
  and compares it with 0. The model reads it as an integer, so fractional
  values are not modelled.
- Scraping is not modelled. This covers colly and goquery in `GetBook`,
  `GetCatalog`, `fetchContent` and `fetchAllContent`, plus GBK decoding,
  `sendmail`, `write`, `novel.go` and `wechat/uuid.go`.
- Catalogs.ParseCatalogURL: the regular expression is not anchored at the
  start, and its unescaped dots match any character. The model accepts only
  the literal site prefix at the start. A URL the regex rejects makes Go
  index out of range; the model returns `None`.
- Catalogs.ExistingIds: `filepath.Glob` and the data-file paths are not
  modelled. The input is the list of `read` results, one per book directory.

=== FILE: assistant.dfy ===
/**
 The group assistant of assisant.go: which replies a group message triggers,
 the member census by sex, and the friend-verification request. Sending,
 sleeping and removing members are recorded as actions; group rosters,
 contact look-ups and server answers are inputs.
 */
module Assistant {
  import opened Wrappers
  import opened Strings
  import opened Events

  const JoinedGroup: string := "加入群聊"
  const SignIn: string := "签到"
  const KickCommand: string := "滚蛋"
  const CensusCommand: string := "统计人数"
  const SystemMessage: int := 10000

  datatype Action =
    | SendText(text: string, to: string)
    | Pause(seconds: int)
    | RemoveMember(group: string, member: string)
    | CountMembers(room: string)

  /** What `handle` reads besides the message: nick names by user name,
      the group's roster, and whether the server accepts each removal. */
  datatype Env = Env(nickOf: string -> string, groupMembers: Result<seq<Contact>, string>, removeOk: string -> bool)

  /** A system notice that someone joined the group. */
  predicate JoinNotice(msg: MsgData) {
    msg.msgType == SystemMessage && Contains(msg.content, JoinedGroup)
  }

  /** The name a join notice quotes, or "" when it cannot be extracted. */
  function JoinedName(msg: MsgData): string {
    OrEmpty(Search(msg.content, "\"", "\"通过"))
  }

  /** The welcome or sign-in reply, sent back to the group. A failed name
      extraction still sends the welcome, with an empty name. */
  function Greeting(msg: MsgData, nickOf: string -> string): (r: seq<Action>)
    ensures |r| <= 1
    ensures |r| == 1 <==> JoinNotice(msg) || Contains(msg.content, SignIn)
    ensures forall k :: 0 <= k < |r| ==> r[k].SendText? && r[k].to == msg.fromUserName
    ensures JoinNotice(msg) ==> r[0].text == "欢迎【" + JoinedName(msg) + "】加入群聊"
    ensures !JoinNotice(msg) && Contains(msg.content, SignIn) ==>
              r[0].text == nickOf(msg.senderUserName) + " 完成了签到"
  {
    if JoinNotice(msg) then
      [SendText("欢迎【" + JoinedName(msg) + "】加入群聊", msg.fromUserName)]
    else if Contains(msg.content, SignIn) then
      [SendText(nickOf(msg.senderUserName) + " 完成了签到", msg.fromUserName)]
    else []
  }

  /** The extracted text, or "" on failure (what `search` returns then). */
  function OrEmpty(r: Result<string, SearchError>): string {
    if r.Success? then r.value else ""
  }

  /** The welcome reply and the sign-in reply are never both sent: a new
      member's join notice suppresses the sign-in check. */
  lemma WelcomeExcludesSignIn(msg: MsgData, nickOf: string -> string)
    requires JoinNotice(msg)
    requires Contains(msg.content, SignIn)
    ensures forall a :: a in Greeting(msg, nickOf) ==> a.text != nickOf(msg.senderUserName) + " 完成了签到"
  {
    var nn := JoinedName(msg);
    var welcome := "欢迎【" + nn + "】加入群聊";
    var signed := nickOf(msg.senderUserName) + " 完成了签到";
    assert welcome[|welcome| - 1] == '聊' && signed[|signed| - 1] == '到';
  }

  /** What one kick does to one matching member: a farewell, a
      three-second pause and the removal request, plus an apology when the
      server refuses the removal. */
  function Farewell(gun: string, nn: string, name: string, removed: bool): (r: seq<Action>)
    ensures |r| == (if removed then 3 else 4)
    ensures r[0] == SendText(nn + FarewellText, gun) && r[1] == Pause(KickPause) && r[2] == RemoveMember(gun, name)
    ensures !removed ==> r[3] == SendText(Apology, gun)
    ensures forall k :: 0 <= k < |r| && k != 2 ==> r[k].SendText? || r[k].Pause?
  {
    [SendText(nn + FarewellText, gun), Pause(KickPause), RemoveMember(gun, name)]
    + (if removed then [] else [SendText(Apology, gun)])
  }

  /** Sent to the group after the target's nick name before the removal. */
  const FarewellText: string := " 送你免费飞机票"
  /** Sent to the group when the server refuses the removal. */
  const Apology: string := "暂时不T你吧"
  /** Seconds slept between the farewell and the removal request. */
  const KickPause: int := 3

  /** The actions for one kick command, member by member in roster order. */
  function KickActions(gun: string, nn: string, members: seq<Contact>, removeOk: string -> bool): (r: seq<Action>)
    ensures (forall c :: c in members ==> c.nickName != nn) ==> r == []
    ensures forall k :: 0 <= k < |r| ==> !r[k].CountMembers?
  {
    if |members| == 0 then []
    else
      var c := members[0];
      var rest := KickActions(gun, nn, members[1..], removeOk);
      assert forall x :: x in members[1..] ==> x in members;
      if c.nickName == nn then Farewell(gun, nn, c.userName, removeOk(c.userName)) + rest
      else rest
  }

  /** `name` is the user name of a member whose nick name is `nn`. */
  predicate IsTarget(members: seq<Contact>, nn: string, name: string) {
    exists c :: c in members && c.nickName == nn && c.userName == name
  }

  /** A kick command removes only group members whose nick name is the
      target, and only from the group it was sent to. */
  lemma {:induction false} KickRemovesOnlyTargets(gun: string, nn: string, members: seq<Contact>, removeOk: string -> bool)
    ensures forall k :: 0 <= k < |KickActions(gun, nn, members, removeOk)| ==>
              var a := KickActions(gun, nn, members, removeOk)[k];
              a.RemoveMember? ==> a.group == gun && IsTarget(members, nn, a.member)
  {
    if |members| > 0 {
      var c := members[0];
      var rest := KickActions(gun, nn, members[1..], removeOk);
      KickRemovesOnlyTargets(gun, nn, members[1..], removeOk);
      assert forall name :: IsTarget(members[1..], nn, name) ==> IsTarget(members, nn, name) by {
        assert forall x :: x in members[1..] ==> x in members;
      }
      var r := KickActions(gun, nn, members, removeOk);
      if c.nickName == nn {
        var head := Farewell(gun, nn, c.userName, removeOk(c.userName));
        assert IsTarget(members, nn, c.userName) by {
          assert c in members;
        }
        forall k | 0 <= k < |r| && r[k].RemoveMember?
          ensures r[k].group == gun && IsTarget(members, nn, r[k].member)
        {
          if k >= |head| {
            assert r[k] == rest[k - |head|];
          } else {
            assert r[k] == head[k];
          }
        }
      }
    }
  }

  /** A kick command removes every group member whose nick name is the
      target. */
  lemma {:induction false} KickRemovesAllTargets(gun: string, nn: string, members: seq<Contact>, removeOk: string -> bool)
    ensures forall c :: c in members && c.nickName == nn ==>
              RemoveMember(gun, c.userName) in KickActions(gun, nn, members, removeOk)
  {
    if |members| > 0 {
      var c := members[0];
      var rest := KickActions(gun, nn, members[1..], removeOk);
      KickRemovesAllTargets(gun, nn, members[1..], removeOk);
      assert forall x :: x in members ==> x == c || x in members[1..];
      if c.nickName == nn {
        var head := Farewell(gun, nn, c.userName, removeOk(c.userName));
        var r := head + rest;
        assert r[2] == RemoveMember(gun, c.userName);
        assert forall a :: a in rest ==> a in r;
      }
    }
  }

  /** strings.Replace(s, old, new, 1) with a non-empty `old`. */
  function ReplaceFirst(s: string, pat: string, rep: string): (r: string)
    requires |pat| > 0
    ensures IndexOf(s, pat) == -1 ==> r == s
    ensures IndexOf(s, pat) >= 0 ==>
              var i := IndexOf(s, pat);
              && |r| == |s| - |pat| + |rep|
              && r[..i] == s[..i]
              && r[i..i + |rep|] == rep && r[i + |rep|..] == s[i + |pat|..]
  {
    var i := IndexOf(s, pat);
    if i == -1 then s else s[..i] + rep + s[i + |pat|..]
  }

  /** On a command that starts with the keyword, the target is the rest. */
  lemma ReplaceFirstOfPrefix(s: string, pat: string)
    requires |pat| > 0 && HasPrefix(s, pat)
    ensures ReplaceFirst(s, pat, "") == s[|pat|..]
  {
    assert OccursAt(s, pat, 0);
    assert FirstOccurrence(s, pat, 0);
    FirstOccurrenceUnique(s, pat, 0, IndexOf(s, pat));
  }

  /** The owner's kick command: "滚蛋<nick>" sent by the user to a group. */
  function Kick(msg: MsgData, env: Env): (r: seq<Action>)
    ensures !(msg.isSendedByMySelf && HasPrefix(msg.content, KickCommand)) || env.groupMembers.Failure? ==> r == []
    ensures msg.isSendedByMySelf && HasPrefix(msg.content, KickCommand) && env.groupMembers.Success? ==>
              r == KickActions(msg.toUserName, msg.content[|KickCommand|..], env.groupMembers.value, env.removeOk)
    ensures forall k :: 0 <= k < |r| ==> !r[k].CountMembers?
  {
    if msg.isSendedByMySelf && HasPrefix(msg.content, KickCommand) then
      var gun := msg.toUserName;
      var nn := ReplaceFirst(msg.content, KickCommand, "");
      ReplaceFirstOfPrefix(msg.content, KickCommand);
      if env.groupMembers.Success? then KickActions(gun, nn, env.groupMembers.value, env.removeOk) else []
    else []
  }

  /** handle: replies to group messages only. A group message gets, in
      this order, the greeting, the kick actions, and the census request. */
  function Handle(msg: MsgData, env: Env): (r: seq<Action>)
    ensures !msg.isGroupMsg ==> r == []
    ensures msg.isGroupMsg ==>
              r == Greeting(msg, env.nickOf) + Kick(msg, env) +
                   (if msg.atMe && Contains(msg.content, CensusCommand) then [CountMembers(msg.toUserName)] else [])
    ensures msg.isGroupMsg ==>
              (CountMembers(msg.toUserName) in r <==> msg.atMe && Contains(msg.content, CensusCommand))
  {
    if !msg.isGroupMsg then []
    else
      var census := if msg.atMe && Contains(msg.content, CensusCommand) then [CountMembers(msg.toUserName)] else [];
      var replies := Greeting(msg, env.nickOf) + Kick(msg, env);
      assert forall k :: 0 <= k < |replies| ==> !replies[k].CountMembers?;
      assert CountMembers(msg.toUserName) !in replies;
      replies + census
  }

  /** Only the user's own "滚蛋" command removes anyone, and only members of
      the group it was sent to whose nick name is the rest of the command. */
  lemma HandleRemovesOnlyOnCommand(msg: MsgData, env: Env)
    ensures forall k :: 0 <= k < |Handle(msg, env)| ==>
              var a := Handle(msg, env)[k];
              a.RemoveMember? ==>
                && msg.isGroupMsg && msg.isSendedByMySelf && HasPrefix(msg.content, KickCommand)
                && env.groupMembers.Success? && a.group == msg.toUserName
                && IsTarget(env.groupMembers.value, msg.content[|KickCommand|..], a.member)
  {
    var r := Handle(msg, env);
    if msg.isGroupMsg {
      var g := Greeting(msg, env.nickOf);
      var kick := Kick(msg, env);
      forall k | 0 <= k < |r| && r[k].RemoveMember?
        ensures msg.isSendedByMySelf && HasPrefix(msg.content, KickCommand)
        ensures env.groupMembers.Success? && r[k].group == msg.toUserName
        ensures IsTarget(env.groupMembers.value, msg.content[|KickCommand|..], r[k].member)
      {
        assert |g| <= k < |g| + |kick| && r[k] == kick[k - |g|];
        if msg.isSendedByMySelf && HasPrefix(msg.content, KickCommand) && env.groupMembers.Success? {
          KickRemovesOnlyTargets(msg.toUserName, msg.content[|KickCommand|..], env.groupMembers.value, env.removeOk);
        }
      }
    }
  }

  /** The census of a group roster. */
  datatype Stats = Stats(man: nat, woman: nat, none: nat)

  /** How chatRoomMember ends: the roster error, a panic on a member the
      contact table does not know (Go dereferences the nil contact), or
      the census. */
  datatype Census = RosterFailed(err: string) | NilContact | Counted(stats: Stats)

  /** Every member of the roster is in the contact table. */
  predicate AllKnown(members: seq<Contact>, lookup: string -> Option<Contact>) {
    forall j :: 0 <= j < |members| ==> lookup(members[j].userName).Some?
  }

  /** The member is in the contact table with sex code `sex`. */
  predicate KnownWithSex(lookup: string -> Option<Contact>, m: Contact, sex: int) {
    lookup(m.userName).Some? && lookup(m.userName).value.sex == sex
  }

  /** The members (looked up by user name) known with sex code `sex`. */
  function CountSex(members: seq<Contact>, lookup: string -> Option<Contact>, sex: int): (n: nat)
    ensures n <= |members|
  {
    if |members| == 0 then 0
    else
      CountSex(members[..|members| - 1], lookup, sex)
      + (if KnownWithSex(lookup, members[|members| - 1], sex) then 1 else 0)
  }

  /** The count is all of the roster when every member is known with that
      sex code, and zero when none is. */
  lemma {:induction false} CountSexExtremes(members: seq<Contact>, lookup: string -> Option<Contact>, sex: int)
    ensures (forall j :: 0 <= j < |members| ==> KnownWithSex(lookup, members[j], sex)) ==>
              CountSex(members, lookup, sex) == |members|
    ensures (forall j :: 0 <= j < |members| ==> !KnownWithSex(lookup, members[j], sex)) ==>
              CountSex(members, lookup, sex) == 0
  {
    if |members| > 0 {
      var init := members[..|members| - 1];
      assert forall j :: 0 <= j < |init| ==> init[j] == members[j];
      CountSexExtremes(init, lookup, sex);
    }
  }

  /** chatRoomMember: sex 1 counts as man, 2 as woman, anything else as
      none; a roster that cannot be fetched is an error, and a member
      missing from the contact table is a nil dereference. */
  method ChatRoomMember(roster: Result<seq<Contact>, string>, lookup: string -> Option<Contact>)
    returns (r: Census)
    ensures roster.Failure? ==> r == RosterFailed(roster.error)
    ensures r.NilContact? <==> roster.Success? && !AllKnown(roster.value, lookup)
    ensures roster.Success? && AllKnown(roster.value, lookup) ==>
              && r.Counted?
              && r.stats.man == CountSex(roster.value, lookup, 1)
              && r.stats.woman == CountSex(roster.value, lookup, 2)
              && r.stats.man + r.stats.woman + r.stats.none == |roster.value|
  {
    if roster.Failure? {
      return RosterFailed(roster.error);
    }
    var members := roster.value;
    var man, woman, none := 0, 0, 0;
    var i := 0;
    while i < |members|
      invariant 0 <= i <= |members|
      invariant AllKnown(members[..i], lookup)
      invariant man == CountSex(members[..i], lookup, 1)
      invariant woman == CountSex(members[..i], lookup, 2)
      invariant man + woman + none == i
    {
      var member := lookup(members[i].userName);
      if member.None? {
        assert !AllKnown(members, lookup) by {
          assert !lookup(members[i].userName).Some?;
        }
        return NilContact;
      }
      CountSexSnoc(members, i, lookup, 1);
      CountSexSnoc(members, i, lookup, 2);
      AllKnownSnoc(members, i, lookup);
      if KnownWithSex(lookup, members[i], 1) {
        man := man + 1;
      } else if KnownWithSex(lookup, members[i], 2) {
        woman := woman + 1;
      } else {
        none := none + 1;
      }
      i := i + 1;
    }
    assert members[..i] == members;
    return Counted(Stats(man, woman, none));
  }

  /** Counting one more member of the roster. */
  lemma CountSexSnoc(members: seq<Contact>, i: int, lookup: string -> Option<Contact>, sex: int)
    requires 0 <= i < |members|
    ensures CountSex(members[..i + 1], lookup, sex) ==
            CountSex(members[..i], lookup, sex) + (if KnownWithSex(lookup, members[i], sex) then 1 else 0)
  {
    assert members[..i + 1][..i] == members[..i];
  }

  /** One more known member keeps the roster prefix known. */
  lemma AllKnownSnoc(members: seq<Contact>, i: int, lookup: string -> Option<Contact>)
    requires 0 <= i < |members|
    requires AllKnown(members[..i], lookup) && lookup(members[i].userName).Some?
    ensures AllKnown(members[..i + 1], lookup)
  {
    var p := members[..i + 1];
    forall j | 0 <= j < |p| ensures lookup(p[j].userName).Some? {
      if j < i {
        assert p[j] == members[..i][j];
      }
    }
  }

  /** The friend-verification request verifyUser posts. */
  datatype VerifyRequest = VerifyRequest(
    url: string, opcode: int, verifyUserListSize: int, userName: string, ticket: string,
    content: string, sceneListCount: int, sceneList: int, skey: string)

  /** verifyUser; `now` is the Unix time stamp in the query string. */
  function VerifyUser(baseURL: string, passTicketKV: string, skey: string, now: string,
                      userName: string, content: string, status: int): (r: VerifyRequest)
    ensures r.opcode == status && r.userName == userName && r.content == content
    ensures r.ticket == "" && r.verifyUserListSize == 1 && r.sceneListCount == 1 && r.sceneList == 33
  {
    VerifyRequest(baseURL + "/webwxverifyuser?r=" + now + "&" + passTicketKV, status, 1,
                  userName, "", content, 1, 33, skey)
  }

  /** addFriend sends a friend request (opcode 2). */
  function AddFriend(baseURL: string, passTicketKV: string, skey: string, now: string,
                     userName: string, content: string): (r: VerifyRequest)
    ensures r.opcode == 2
  {
    VerifyUser(baseURL, passTicketKV, skey, now, userName, content, 2)
  }

  /** acceptAddFriend accepts one (opcode 3). */
  function AcceptAddFriend(baseURL: string, passTicketKV: string, skey: string, now: string,
                           userName: string, content: string): (r: VerifyRequest)
    ensures r.opcode == 3
  {
    VerifyUser(baseURL, passTicketKV, skey, now, userName, content, 3)
  }

  /** Adding and accepting a friend send the same request except for the
      opcode. */
  lemma AddAndAcceptDifferOnlyInOpcode(baseURL: string, passTicketKV: string, skey: string, now: string,
                                       userName: string, content: string)
    ensures AddFriend(baseURL, passTicketKV, skey, now, userName, content)
            == AcceptAddFriend(baseURL, passTicketKV, skey, now, userName, content).(opcode := 2)
  {
  }
}

=== FILE: catalogs.dfy ===
/**
 The catalog crawler's bookkeeping in catalogs.go: which book ids already
 have a saved catalog, which ids are visited and in what order, how the
 "subid" directory of an id is derived, and the catalog URL built from it.
 Scraping the catalog page and the file system are left out; saved catalogs
 are given as the decoded contents of their data files.
 */
module Catalogs {
  import opened Wrappers
  import opened Strings

  datatype Chapter = Chapter(id: int, url: string, name: string)

  datatype Catalog = Catalog(
    id: int, subId: string, name: string, author: string, url: string,
    chapters: seq<Chapter>, category: string, lastChapter: string, lastUpdate: string)

  /** The value `read` returns when the data file cannot be read or decoded. */
  const ZeroCatalog: Catalog := Catalog(0, "", "", "", "", [], "", "", "")

  /** The largest id the existing-set scan looks for. */
  const MaxCatalogId: int := 57260
  /** The id the visit loop starts from. */
  const MaxVisitId: int := 39293

  const SitePrefix: string := "https://www.bqg5200.com/xiaoshuo/"

  /** What reading and decoding one data file gives. encoding/json checks
      the syntax of the whole text before it decodes anything, so a syntax
      error leaves the catalog untouched; a value of the wrong type skips
      only that field, every other field is still decoded, and the error is
      reported at the end, so `partial` holds what was decoded. */
  datatype DataFile =
    | ReadFailed(reason: string)
    | SyntaxError(reason: string)
    | TypeError(partial: Catalog, reason: string)
    | Decoded(catalog: Catalog)

  /** The file could not be read, or its text is not JSON at all. */
  predicate Unparsed(d: DataFile) {
    d.ReadFailed? || d.SyntaxError?
  }

  /** read: the catalog in its named result, and whether the data file is
      removed (it is, exactly when it could not be read or decoded). The
      named result keeps what a type error left in it. */
  function Read(data: DataFile): (r: (Catalog, bool))
    ensures r.1 <==> !data.Decoded?
    ensures Unparsed(data) ==> r.0 == ZeroCatalog
    ensures data.TypeError? ==> r.0 == data.partial
    ensures data.Decoded? ==> r.0 == data.catalog
  {
    match data
    case Decoded(cl) => (cl, false)
    case TypeError(cl, _) => (cl, true)
    case _ => (ZeroCatalog, true)
  }

  /** The ids of the catalogs read from `files`. */
  predicate SavedId(files: seq<DataFile>, i: int) {
    exists k :: 0 <= k < |files| && Read(files[k]).0.id == i
  }

  /** The existing-set scan: for every data file, every id from 57260 down
      to 1 equal to the catalog's id is recorded. */
  method ExistingIds(files: seq<DataFile>) returns (exist: set<int>)
    ensures forall i :: i in exist <==> 1 <= i <= MaxCatalogId && SavedId(files, i)
    ensures 0 !in exist
  {
    exist := {};
    var f := 0;
    while f < |files|
      invariant 0 <= f <= |files|
      invariant forall i :: i in exist <==> 1 <= i <= MaxCatalogId && SavedId(files[..f], i)
    {
      var cl := Read(files[f]).0;
      var i := MaxCatalogId;
      ghost var before := exist;
      while i >= 1
        invariant 0 <= i <= MaxCatalogId
        invariant exist == before + (if i < cl.id <= MaxCatalogId then {cl.id} else {})
      {
        if cl.id == i {
          exist := exist + {i};
        }
        i := i - 1;
      }
      assert files[..f + 1] == files[..f] + [files[f]];
      forall j ensures SavedId(files[..f + 1], j) <==> SavedId(files[..f], j) || cl.id == j {
        if SavedId(files[..f + 1], j) {
          var k :| 0 <= k < f + 1 && Read(files[..f + 1][k]).0.id == j;
          if k < f {
            assert files[..f][k] == files[..f + 1][k];
          }
        }
        if SavedId(files[..f], j) {
          var k :| 0 <= k < f && Read(files[..f][k]).0.id == j;
          assert files[..f + 1][k] == files[..f][k];
        }
        if cl.id == j {
          assert files[..f + 1][f] == files[f];
        }
      }
      f := f + 1;
    }
    assert files[..f] == files;
  }

  /** A file that cannot be read or parsed yields id 0, which is never
      recorded. */
  lemma FailedReadNeverRecorded(files: seq<DataFile>, exist: set<int>)
    requires forall i :: i in exist <==> 1 <= i <= MaxCatalogId && SavedId(files, i)
    requires forall k :: 0 <= k < |files| ==> Unparsed(files[k])
    ensures exist == {}
  {
    assert forall k :: 0 <= k < |files| ==> Read(files[k]).0.id == 0;
    assert forall i :: SavedId(files, i) ==> i == 0;
    assert forall i :: i !in exist;
  }

  /** A data file whose id decoded before a type error is removed, yet its
      id is recorded, so the crawler does not visit that book again. */
  lemma PartialDecodeRecorded(files: seq<DataFile>, exist: set<int>, k: int)
    requires forall i :: i in exist <==> 1 <= i <= MaxCatalogId && SavedId(files, i)
    requires 0 <= k < |files| && files[k].TypeError?
    requires 1 <= files[k].partial.id <= MaxVisitId
    ensures Read(files[k]).1
    ensures files[k].partial.id in exist
    ensures files[k].partial.id !in VisitOrder(exist)
  {
    assert Read(files[k]).0.id == files[k].partial.id;
  }

  /** The visit loop: ids from `from` down to 1 that have no saved catalog. */
  function Visits(exist: set<int>, from: int): (r: seq<int>)
    ensures forall k :: 0 <= k < |r| ==> 1 <= r[k] <= from && r[k] !in exist
    ensures forall i :: 1 <= i <= from && i !in exist ==> i in r
    ensures forall j, k :: 0 <= j < k < |r| ==> r[j] > r[k]
    decreases from
  {
    if from < 1 then []
    else
      var rest := Visits(exist, from - 1);
      if from in exist then rest else [from] + rest
  }

  /** The ids the crawler visits, in visiting order. */
  function VisitOrder(exist: set<int>): (r: seq<int>)
    ensures forall i :: i in r <==> 1 <= i <= MaxVisitId && i !in exist
  {
    Visits(exist, MaxVisitId)
  }

  /** The subid directory of a book id: "0" for ids of at most three
      digits, otherwise the id's numeral without its last three digits. */
  function SubId(id: nat): (r: string)
    ensures id < 1000 ==> r == "0"
    ensures id >= 1000 ==> r == Itoa(id / 1000)
  {
    var s := Itoa(id);
    ItoaLength(id, 3);
    assert Pow10(3) == 1000;
    if |s| > 3 then
      var r := TrimSuffix(s, s[|s| - 3..]);
      assert r == s[..|s| - 3];
      ItoaDropThree(id);
      r
    else "0"
  }

  /** Dropping the last three digits of a numeral divides by 1000. */
  lemma ItoaDropThree(n: nat)
    requires n >= 1000
    ensures |Itoa(n)| > 3 && Itoa(n)[..|Itoa(n)| - 3] == Itoa(n / 1000)
  {
    var s := Itoa(n);
    ItoaDropLast(n);
    ItoaDropLast(n / 10);
    ItoaDropLast(n / 100);
    assert n / 10 / 10 == n / 100 && n / 100 / 10 == n / 1000;
    assert s[..|s| - 3] == s[..|s| - 1][..|s| - 2][..|s| - 3];
  }

  /** The subid is "0" exactly for the ids below 1000. */
  lemma SubIdZero(id: nat)
    ensures SubId(id) == "0" <==> id < 1000
  {
    if id >= 1000 {
      assert Itoa(id / 1000)[0] != '0';
    }
  }

  /** The catalog page of a book. */
  function VisitURL(id: nat): (r: string)
    ensures HasPrefix(r, SitePrefix + SubId(id) + "/")
    ensures HasSuffix(r, "/" + Itoa(id) + "/")
  {
    SitePrefix + SubId(id) + "/" + Itoa(id) + "/"
  }

  /** The length of the run of decimal digits that starts `s`. */
  function DigitRun(s: string): (n: nat)
    ensures n <= |s|
    ensures forall k :: 0 <= k < n ==> IsDigit(s[k])
    ensures n < |s| ==> !IsDigit(s[n])
  {
    if |s| > 0 && IsDigit(s[0]) then 1 + DigitRun(s[1..]) else 0
  }

  /** A non-empty run of decimal digits: what the pattern `(\d+)` captures. */
  predicate Digits(s: string) {
    |s| > 0 && forall k :: 0 <= k < |s| ==> IsDigit(s[k])
  }

  /** The path the catalog pattern matches after the site prefix: the subid,
      "/", the id's digits and a tail that is empty or one "/". */
  function CatalogPath(sub: string, num: string, tail: string): string {
    sub + "/" + num + tail
  }

  /** The URL matcher of the catalog callback: the site prefix, a run of
      digits (the subid), "/", a run of digits (the id), an optional "/",
      and nothing more. */
  function ParseCatalogURL(url: string): (r: Option<(string, nat)>)
    ensures r.Some? ==> HasPrefix(url, SitePrefix) && Digits(r.value.0)
    ensures r.Some? ==> exists num, tail | Digits(num) && (tail == "" || tail == "/") ::
                          url == SitePrefix + CatalogPath(r.value.0, num, tail) && r.value.1 == DecimalValue(num)
  {
    if !HasPrefix(url, SitePrefix) then None
    else
      var rest := url[|SitePrefix|..];
      var r := ParseCatalogPath(rest);
      assert url == SitePrefix + rest;
      r
  }

  /** The matcher after the site prefix. */
  function ParseCatalogPath(rest: string): (r: Option<(string, nat)>)
    ensures r.Some? ==> Digits(r.value.0)
    ensures r.Some? ==> exists num, tail | Digits(num) && (tail == "" || tail == "/") ::
                          rest == CatalogPath(r.value.0, num, tail) && r.value.1 == DecimalValue(num)
  {
    var n1 := DigitRun(rest);
    if n1 == 0 || n1 == |rest| || rest[n1] != '/' then None
    else
      var rest2 := rest[n1 + 1..];
      var n2 := DigitRun(rest2);
      var tail := rest2[n2..];
      if n2 == 0 || !(tail == "" || tail == "/") then None
      else
        var num := rest2[..n2];
        CatalogPathSplit(rest, n1, n2);
        Some((rest[..n1], DecimalValue(num)))
  }

  /** Cutting a string at a "/" and once more after it gives back the
      string. */
  lemma CatalogPathSplit(rest: string, n1: nat, n2: nat)
    requires n1 < |rest| && rest[n1] == '/' && n2 <= |rest[n1 + 1..]|
    ensures rest == CatalogPath(rest[..n1], rest[n1 + 1..][..n2], rest[n1 + 1..][n2..])
  {
    var rest2 := rest[n1 + 1..];
    assert rest == rest[..n1] + "/" + rest2;
    assert rest2 == rest2[..n2] + rest2[n2..];
  }

  /** A run of digits followed by a non-digit. */
  lemma {:induction false} DigitRunOf(a: string, t: string)
    requires forall k :: 0 <= k < |a| ==> IsDigit(a[k])
    requires |t| == 0 || !IsDigit(t[0])
    ensures DigitRun(a + t) == |a|
  {
    if |a| > 0 {
      assert (a + t)[1..] == a[1..] + t;
      DigitRunOf(a[1..], t);
    } else {
      assert a + t == t;
    }
  }

  /** After the prefix, the matcher accepts a digit run, "/", a digit run
      and an optional "/", and reads back both runs. */
  lemma ParseCatalogPathOf(sub: string, num: string, tail: string)
    requires Digits(sub) && Digits(num)
    requires tail == "" || tail == "/"
    ensures ParseCatalogPath(sub + ("/" + (num + tail))) == Some((sub, DecimalValue(num)))
  {
    var rest2 := num + tail;
    var rest := sub + ("/" + rest2);
    DigitRunOf(sub, "/" + rest2);
    SlashPieces(sub, rest2);
    DigitRunOf(num, tail);
    assert rest2[|num|..] == tail && rest2[..|num|] == num;
  }

  lemma SlashPieces(sub: string, rest2: string)
    ensures var rest := sub + ("/" + rest2);
      rest[|sub|] == '/' && rest[|sub| + 1..] == rest2 && rest[..|sub|] == sub
  {
  }

  /** The matcher strips the site prefix. */
  lemma ParseCatalogURLOfPrefix(rest: string)
    ensures ParseCatalogURL(SitePrefix + rest) == ParseCatalogPath(rest)
  {
    assert (SitePrefix + rest)[..|SitePrefix|] == SitePrefix;
    assert (SitePrefix + rest)[|SitePrefix|..] == rest;
  }

  lemma Regroup(a: string, b: string, c: string, d: string, e: string)
    ensures a + b + c + d + e == a + (b + (c + (d + e)))
  {
  }

  /** Round trip: the catalog callback reads back the subid and id the
      visit loop put into the URL. */
  lemma ParseVisitURL(id: nat)
    ensures ParseCatalogURL(VisitURL(id)) == Some((SubId(id), id))
  {
    var sub, num := SubId(id), Itoa(id);
    Regroup(SitePrefix, sub, "/", num, "/");
    ParseCatalogURLOfPrefix(sub + ("/" + (num + "/")));
    ParseCatalogPathOf(sub, num, "/");
    DecimalValueOfItoa(id);
  }
}

=== FILE: download.dfy ===
/**
 Book assembly in download.go: each scraped chapter is formatted into a
 ".rbx" file named after its chapter id, and fileMerge concatenates the
 chapter files of a book directory in numeric order behind a title line.
 The directory walk is given as its list of visited entries; reading and
 writing files are left out.
 */
module Download {
  import opened Wrappers
  import opened Strings

  const ChapterSuffix: string := ".rbx"

  /** A non-breaking space decoded from GBK, turned into a plain space. */
  const GbkSpace: string := "聽"
  const LineBreak: string := "<br/>"

  /** fetchContent's chapter text: a level-3 heading with the trimmed
      title, then the article with its non-breaking spaces made plain and
      every line break tag turned into a newline, then a blank line. */
  function FormatChapter(title: string, article: string): (r: string)
    ensures HasPrefix(r, "### " + TrimSpace(title) + "\n")
    ensures HasSuffix(r, ChapterBody(article) + "\n\n")
    ensures |r| == 4 + |TrimSpace(title)| + 1 + |ChapterBody(article)| + 2
  {
    var head := "### " + TrimSpace(title) + "\n";
    var tail := ChapterBody(article) + "\n\n";
    assert head + tail == "### " + TrimSpace(title) + "\n" + ChapterBody(article) + "\n\n";
    assert (head + tail)[..|head|] == head;
    assert (head + tail)[|head + tail| - |tail|..] == tail;
    head + tail
  }

  /** A plain article under a title without surrounding white space is
      written as the heading, the article and a blank line. */
  lemma FormatPlainChapter(title: string, article: string)
    requires TrimSpace(title) == title
    requires Absent(article, LineBreak) && '聽' !in article
    ensures FormatChapter(title, article) == "### " + title + "\n" + article + "\n\n"
  {
    ChapterBodyPlain(article);
    var r := FormatChapter(title, article);
    var head := "### " + title + "\n";
    var tail := article + "\n\n";
    assert r == r[..|head|] + r[|head|..];
    assert r[|head|..] == r[|r| - |tail|..];
  }

  /** The two replacements of fetchContent, in order. */
  function ChapterBody(article: string): (r: string)
    ensures Absent(r, LineBreak)
    ensures '聽' !in r
  {
    var spaced := ReplaceAll(article, GbkSpace, " ");
    ReplaceAllRemoves(article, GbkSpace, " ");
    CharAbsent(spaced, '聽');
    var r := ReplaceAll(spaced, LineBreak, "\n");
    ReplaceAllRemoves(spaced, LineBreak, "\n");
    ReplaceAllKeepsOut(spaced, LineBreak, "\n", '聽');
    r
  }

  /** The body is the article split on the non-breaking space and joined
      with " ", then split on "<br/>" and joined with "\n". */
  lemma ChapterBodySplitJoin(article: string)
    ensures ChapterBody(article) == Join(Split(Join(Split(article, GbkSpace), " "), LineBreak), "\n")
  {
    ReplaceAllSplitJoin(article, GbkSpace, " ");
    ReplaceAllSplitJoin(ReplaceAll(article, GbkSpace, " "), LineBreak, "\n");
  }

  /** An article with neither line break tags nor non-breaking spaces is
      written as it is. */
  lemma ChapterBodyPlain(article: string)
    requires Absent(article, LineBreak) && '聽' !in article
    ensures ChapterBody(article) == article
  {
    CharAbsent(article, '聽');
    ReplaceAllAbsent(article, GbkSpace, " ");
    ReplaceAllAbsent(article, LineBreak, "\n");
  }

  /** The file a chapter is written to: the chapter number captured from
      its URL (the regex group `(\d+)`, so a non-empty run of digits, kept
      as written, leading zeros included) with the chapter suffix, inside
      the book's directory. */
  function ChapterPath(bookDir: string, digits: string): (r: string)
    requires |digits| > 0 && forall k :: 0 <= k < |digits| ==> IsDigit(digits[k])
    ensures HasPrefix(r, bookDir + "/") && HasSuffix(r, ChapterSuffix)
    ensures |r| == |bookDir| + 1 + |digits| + |ChapterSuffix|
    ensures r[|bookDir| + 1..|r| - |ChapterSuffix|] == digits
  {
    bookDir + "/" + digits + ChapterSuffix
  }

  /** One entry of the directory walk: its path, whether it is a
      directory, and the bytes of the file. */
  datatype Entry = Entry(path: string, isDir: bool, content: string)

  predicate IsChapterFile(e: Entry) {
    !e.isDir && HasSuffix(e.path, ChapterSuffix)
  }

  /** The walk's callback: keep the non-directory entries ending in ".rbx",
      in walk order. */
  function ChapterFiles(entries: seq<Entry>): (r: seq<Entry>)
    ensures forall k :: 0 <= k < |r| ==> IsChapterFile(r[k])
  {
    if |entries| == 0 then []
    else
      var rest := ChapterFiles(entries[1..]);
      if IsChapterFile(entries[0]) then
        var r := [entries[0]] + rest;
        assert forall k :: 1 <= k < |r| ==> r[k] == rest[k - 1];
        r
      else rest
  }

  /** Every kept entry comes from the walk, as often as it was visited at
      most. */
  lemma {:induction false} ChapterFilesFromWalk(entries: seq<Entry>)
    ensures multiset(ChapterFiles(entries)) <= multiset(entries)
  {
    if |entries| > 0 {
      ChapterFilesFromWalk(entries[1..]);
      MultisetOfCons(entries);
      var rest := ChapterFiles(entries[1..]);
      if IsChapterFile(entries[0]) {
        assert ChapterFiles(entries) == [entries[0]] + rest;
      } else {
        assert ChapterFiles(entries) == rest;
      }
    }
  }

  /** Each chapter file is kept exactly as often as the walk visited it,
      and nothing else is kept. */
  lemma {:induction false} ChapterFilesCounts(entries: seq<Entry>, e: Entry)
    ensures IsChapterFile(e) ==> multiset(ChapterFiles(entries))[e] == multiset(entries)[e]
    ensures !IsChapterFile(e) ==> multiset(ChapterFiles(entries))[e] == 0
  {
    if |entries| > 0 {
      ChapterFilesCounts(entries[1..], e);
      MultisetOfCons(entries);
      var rest := ChapterFiles(entries[1..]);
      if IsChapterFile(entries[0]) {
        assert ChapterFiles(entries) == [entries[0]] + rest;
        assert multiset(ChapterFiles(entries)) == multiset{entries[0]} + multiset(rest);
      } else {
        assert ChapterFiles(entries) == rest;
      }
    }
  }

  /** No chapter file of the walk is skipped. */
  lemma {:induction false} ChapterFilesKeeps(entries: seq<Entry>, e: Entry)
    requires e in entries && IsChapterFile(e)
    ensures e in ChapterFiles(entries)
  {
    if entries[0] != e {
      assert e in entries[1..];
      ChapterFilesKeeps(entries[1..], e);
    }
  }

  /** The kept entries are exactly the chapter files of the walk. */
  lemma ChapterFilesMembers(entries: seq<Entry>)
    ensures forall e :: e in ChapterFiles(entries) <==> e in entries && IsChapterFile(e)
  {
    var r := ChapterFiles(entries);
    ChapterFilesFromWalk(entries);
    forall e | e in r
      ensures e in entries && IsChapterFile(e)
    {
      assert e in multiset(r);
    }
    forall e | e in entries && IsChapterFile(e)
      ensures e in r
    {
      ChapterFilesKeeps(entries, e);
    }
  }

  /** The sort key: the number in the base name before ".rbx", or 0 when it
      does not parse (the Go code drops Atoi's error). */
  function ChapterKey(path: string): (k: int)
    ensures var name := TrimSuffix(Base(path), ChapterSuffix);
            && (!IsNumeral(name) ==> k == 0)
            && (|name| > 0 && (forall j :: 0 <= j < |name| ==> IsDigit(name[j])) ==> k >= 0)
  {
    match Atoi(TrimSuffix(Base(path), ChapterSuffix))
    case Some(n) => n
    case None => 0
  }

  /** The key of a chapter file is the value of the number it was written
      under. */
  lemma ChapterKeyOfPath(bookDir: string, digits: string)
    requires |digits| > 0 && forall k :: 0 <= k < |digits| ==> IsDigit(digits[k])
    ensures ChapterKey(ChapterPath(bookDir, digits)) == DecimalValue(digits)
  {
    ChapterNameOfPath(bookDir, digits);
    AtoiDigits(digits);
  }

  /** A chapter written under the numeral of `id` sorts under `id`. */
  lemma ChapterKeyOfId(bookDir: string, id: nat)
    ensures ChapterKey(ChapterPath(bookDir, Itoa(id))) == id
  {
    ChapterKeyOfPath(bookDir, Itoa(id));
    DecimalValueOfItoa(id);
  }

  /** The base name of a chapter file, less the suffix, is its number. */
  lemma ChapterNameOfPath(bookDir: string, digits: string)
    requires |digits| > 0 && forall k :: 0 <= k < |digits| ==> IsDigit(digits[k])
    ensures TrimSuffix(Base(ChapterPath(bookDir, digits)), ChapterSuffix) == digits
  {
    var name := digits + ChapterSuffix;
    assert '/' !in name by {
      assert forall k :: 0 <= k < |digits| ==> name[k] == digits[k];
      assert forall k :: |digits| <= k < |name| ==> name[k] == ChapterSuffix[k - |digits|];
    }
    assert ChapterPath(bookDir, digits) == bookDir + "/" + name;
    BaseOfJoin(bookDir, name);
    assert HasSuffix(name, ChapterSuffix) by {
      assert name[|name| - |ChapterSuffix|..] == ChapterSuffix;
    }
  }

  /** Ascending by `key` of the path. */
  predicate SortedBy(s: seq<Entry>, key: string -> int) {
    forall k :: 0 < k < |s| ==> key(s[k - 1].path) <= key(s[k].path)
  }

  predicate SortedByKey(s: seq<Entry>) {
    SortedBy(s, ChapterKey)
  }

  /** Inserts an entry before the first entry with a greater or equal key. */
  function Insert(x: Entry, s: seq<Entry>, key: string -> int): (r: seq<Entry>)
    requires SortedBy(s, key)
    ensures SortedBy(r, key)
    ensures |r| == |s| + 1 && (r[0] == x || (|s| > 0 && r[0] == s[0]))
  {
    if |s| == 0 || key(x.path) <= key(s[0].path) then [x] + s
    else
      var rest := Insert(x, s[1..], key);
      var r := [s[0]] + rest;
      assert key(r[0].path) <= key(r[1].path);
      assert forall k :: 1 <= k < |r| ==> r[k] == rest[k - 1];
      r
  }

  /** Insertion adds the entry and loses nothing. */
  lemma {:induction false} InsertPermutes(x: Entry, s: seq<Entry>, key: string -> int)
    requires SortedBy(s, key)
    ensures multiset(Insert(x, s, key)) == multiset(s) + multiset{x}
  {
    if |s| > 0 && key(x.path) > key(s[0].path) {
      InsertPermutes(x, s[1..], key);
      MultisetOfCons(s);
    }
  }

  /** Orders the chapter files by key. sort.Slice is not stable, so only
      the order of keys is promised: chapters with equal keys may come in
      any order. */
  function SortChapters(s: seq<Entry>, key: string -> int): (r: seq<Entry>)
    ensures SortedBy(r, key)
    ensures |r| == |s|
  {
    if |s| == 0 then [] else Insert(s[0], SortChapters(s[1..], key), key)
  }

  /** The sorted chapters are a permutation of the input. */
  lemma {:induction false} SortChaptersPermutes(s: seq<Entry>, key: string -> int)
    ensures multiset(SortChapters(s, key)) == multiset(s)
  {
    if |s| > 0 {
      var rest := SortChapters(s[1..], key);
      SortChaptersPermutes(s[1..], key);
      InsertPermutes(s[0], rest, key);
      assert SortChapters(s, key) == Insert(s[0], rest, key);
      MultisetOfCons(s);
    }
  }

  /** A non-empty sequence counts its head once more than its tail. */
  lemma MultisetOfCons(s: seq<Entry>)
    requires |s| > 0
    ensures multiset(s) == multiset(s[1..]) + multiset{s[0]}
  {
    assert s == [s[0]] + s[1..];
  }

  /** The title line of the merged book. */
  function Header(name: string): (r: string)
    ensures HasPrefix(r, "## ") && HasSuffix(r, "\n\n\n")
    ensures |r| == |name| + 6 && r[3..|r| - 3] == name
  {
    "## " + name + "\n\n\n"
  }

  /** Each chapter's bytes followed by a blank line. */
  function Chapters(s: seq<Entry>): (r: string)
    ensures |s| > 0 ==> HasSuffix(r, "\n\n")
  {
    if |s| == 0 then ""
    else
      var head := s[0].content + "\n\n";
      var rest := Chapters(s[1..]);
      if |s| == 1 then
        assert head + rest == head;
        head + rest
      else
        assert (head + rest)[|head + rest| - 2..] == rest[|rest| - 2..];
        head + rest
  }

  /** The merged book: where it is written and what it holds. */
  datatype Book = Book(dir: string, fileName: string, text: string, order: seq<Entry>)

  /** fileMerge: the output goes to "<base>.txt" inside the root; it starts
      with the title line, then the chapter files in ascending key order,
      each followed by a blank line. */
  function FileMerge(root: string, walk: seq<Entry>): (b: Book)
    ensures b.dir == root && b.fileName == Base(root) + ".txt"
    ensures SortedByKey(b.order)
    ensures multiset(b.order) == multiset(ChapterFiles(walk))
    ensures forall e :: e in b.order <==> e in walk && IsChapterFile(e)
    ensures forall e :: IsChapterFile(e) ==> multiset(b.order)[e] == multiset(walk)[e]
    ensures b.text == Header(Base(root)) + Chapters(b.order)
  {
    var name := Base(root);
    var cpts := ChapterFiles(walk);
    var order := SortChapters(cpts, ChapterKey);
    SortChaptersPermutes(cpts, ChapterKey);
    ChapterFilesMembers(walk);
    assert forall e :: e in order <==> e in multiset(order);
    assert forall e :: IsChapterFile(e) ==> multiset(cpts)[e] == multiset(walk)[e] by {
      forall e | IsChapterFile(e) ensures multiset(cpts)[e] == multiset(walk)[e] {
        ChapterFilesCounts(walk, e);
      }
    }
    Book(root, name + ".txt", Header(name) + Chapters(order), order)
  }

  /** The merged text is the header followed by each chapter and a blank
      line, chapter by chapter. */
  lemma {:induction false} ChaptersAppend(s: seq<Entry>, e: Entry)
    ensures Chapters(s + [e]) == Chapters(s) + e.content + "\n\n"
  {
    if |s| > 0 {
      assert (s + [e])[1..] == s[1..] + [e];
      ChaptersAppend(s[1..], e);
    } else {
      assert s + [e] == [e];
    }
  }
}

=== FILE: events.dfy ===
/**
 The events the WeChat client publishes on its bus and the decoders that
 build them from one server update (wechat/events.go). Events are immutable
 values; the wall-clock time stamp the Go code attaches is left out.
 */
module Events {
  import opened Wrappers
  import opened Strings

  /** The contact fields the modelled code reads. */
  datatype Contact = Contact(userName: string, nickName: string, displayName: string, sex: int)

  /** The two contact-change kinds the server update produces. */
  datatype ChangeType = Delete | Modify

  /** One entry of the server's added-message list, already decoded. A
      missing or non-number `HasProductId` is decoded as 0: the Go code
      uses the comma-ok type assertion and ignores the ok flag, so it
      reads the zero value. Go reads the number as a float64; only its
      integer values are modelled. */
  datatype RawMessage = RawMessage(
    fromUserName: string,
    toUserName: string,
    content: string,
    msgType: int,
    msgId: string,
    hasProductId: int)

  /** EventMsgData: a decoded new message. */
  datatype MsgData = MsgData(
    isGroupMsg: bool,
    isMediaMsg: bool,
    isSendedByMySelf: bool,
    msgType: int,
    atMe: bool,
    mediaURL: string,
    content: string,
    fromUserName: string,
    senderUserName: string,
    toUserName: string,
    original: RawMessage)

  datatype EventData =
    | NoData
    | ContactData(changeType: ChangeType, contact: Contact)
    | MessageData(msg: MsgData)

  datatype Event = Event(kind: string, path: string, from: string, to: string, data: EventData)

  /** The reserved path that stops the dispatch loop. */
  const StopPath: string := "/sig/stoploop"

  /** The separator between a group message's sender and its text. */
  const SenderSeparator: string := ":<br/>"

  /** emitContactChangeEvent: a removed contact goes to /contact/del,
      every other change to /contact/mod. */
  function ContactChangeEvent(c: Contact, ct: ChangeType): (e: Event)
    ensures e.path == "/contact/del" <==> ct == Delete
    ensures e.path == "/contact/mod" <==> ct != Delete
    ensures e.data == ContactData(ct, c) && e.kind == "ContactChange"
  {
    var route := if ct != Delete then "/mod" else "/del";
    assert "/contact/mod"[10] != "/contact/del"[10];
    Event("ContactChange", "/contact" + route, "Server", "End", ContactData(ct, c))
  }

  /** Group chats have user names starting with "@@". */
  predicate IsGroupAddress(userName: string) {
    HasPrefix(userName, "@@")
  }

  /** The group a message belongs to: its sender if that is a group,
      otherwise its recipient if that is a group, otherwise none (""). */
  function GroupUserName(from: string, to: string): (g: string)
    ensures g == "" <==> !IsGroupAddress(from) && !IsGroupAddress(to)
    ensures g != "" ==> IsGroupAddress(g) && (g == from || g == to)
    ensures IsGroupAddress(from) ==> g == from
  {
    if IsGroupAddress(from) then from else if IsGroupAddress(to) then to else ""
  }

  /** The download endpoint of a media message type, or "" when the
      message carries no media. */
  function MediaRoute(msgType: int, hasProductId: int): (r: string)
    ensures r == "webwxgetmsgimg" <==> msgType == 3 || (msgType == 47 && hasProductId == 0)
    ensures r == "webwxgetvoice" <==> msgType == 34
    ensures r == "webwxgetvideo" <==> msgType == 43
  {
    if msgType == 3 then "webwxgetmsgimg"
    else if msgType == 47 then (if hasProductId == 0 then "webwxgetmsgimg" else "")
    else if msgType == 34 then "webwxgetvoice"
    else if msgType == 43 then "webwxgetvideo"
    else ""
  }

  /** Images, voice and video are media; a type-47 sticker only when it is
      not a product card; nothing else. */
  lemma MediaTypes(msgType: int, hasProductId: int)
    ensures MediaRoute(msgType, hasProductId) != "" <==>
              msgType == 3 || msgType == 34 || msgType == 43 || (msgType == 47 && hasProductId == 0)
  {
  }

  /** The text an "@me" mention carries: "@" and the display name, or the
      nick name when there is no display name. */
  function AtMeNeedle(self: Contact): (n: string)
    ensures |n| >= 1 && n[0] == '@'
    ensures |self.displayName| > 0 ==> n[1..] == self.displayName
    ensures |self.displayName| == 0 ==> n[1..] == self.nickName
  {
    "@" + (if |self.displayName| > 0 then self.displayName else self.nickName)
  }

  /** What the decoder reads besides the message: the logged-in user, the
      session's base URL and "skey=..." query pair, and the contact table. */
  datatype Context = Context(self: Contact, baseURL: string, skeyKV: string, contacts: map<string, Contact>)

  /** A message is either published or dropped; a drop caused by an unknown
      sender also asks for the group's member list to be reloaded. */
  datatype Delivery = Publish(event: Event) | Drop(forceUpdateGroup: Option<string>)

  /** The decoder's result: the group whose roster is refreshed when stale
      (every group message asks for this) and the delivery. */
  datatype Decoded = Decoded(updateGroup: Option<string>, delivery: Delivery)

  /** emitNewMessageEvent. */
  function NewMessageEvent(ctx: Context, m: RawMessage): (r: Decoded)
    ensures var group := IsGroupAddress(m.fromUserName) || IsGroupAddress(m.toUserName);
            && (r.updateGroup.Some? <==> group)
            && (r.delivery.Publish? ==>
                  var e := r.delivery.event;
                  && e.path == (if group then "/msg/group" else "/msg/solo")
                  && e.data.MessageData?
                  && e.data.msg.isGroupMsg == group
                  && (e.data.msg.isSendedByMySelf <==> m.fromUserName == ctx.self.userName)
                  && (e.data.msg.isMediaMsg <==> MediaRoute(m.msgType, m.hasProductId) != "")
                  && (e.data.msg.isMediaMsg <==> e.data.msg.mediaURL != "")
                  && (e.data.msg.isMediaMsg ==>
                        e.data.msg.mediaURL
                        == ctx.baseURL + "/" + MediaRoute(m.msgType, m.hasProductId) + "?msgid=" + m.msgId + "&" + ctx.skeyKV)
                  && (e.data.msg.atMe <==>
                        group && m.fromUserName != ctx.self.userName && Contains(m.content, AtMeNeedle(ctx.self)))
                  && e.data.msg.fromUserName == m.fromUserName
                  && e.data.msg.toUserName == m.toUserName
                  && e.data.msg.msgType == m.msgType)
            && (r.delivery.Drop? ==> group && m.fromUserName != ctx.self.userName)
  {
    var from := m.fromUserName;
    var isSendedByMySelf := from == ctx.self.userName;
    var groupUserName := GroupUserName(from, m.toUserName);
    var isGroupMsg := |groupUserName| > 0;
    var update := if isGroupMsg then Some(groupUserName) else None;
    var route := MediaRoute(m.msgType, m.hasProductId);
    var isMediaMsg := |route| > 0;
    var mediaURL := if isMediaMsg then ctx.baseURL + "/" + route + "?msgid=" + m.msgId + "&" + ctx.skeyKV else "";
    var evtPath := if isGroupMsg then "/group" else "/solo";
    if isGroupMsg && !isSendedByMySelf then
      var isAtMe := Contains(m.content, AtMeNeedle(ctx.self));
      var infos := Split(m.content, SenderSeparator);
      if |infos| != 2 then Decoded(update, Drop(None))
      else if infos[0] !in ctx.contacts then Decoded(update, Drop(Some(groupUserName)))
      else
        var data := MsgData(isGroupMsg, isMediaMsg, isSendedByMySelf, m.msgType, isAtMe, mediaURL,
                            infos[1], from, ctx.contacts[infos[0]].userName, m.toUserName, m);
        Decoded(update, Publish(Event("NewMessage", "/msg" + evtPath, "Server", "End", MessageData(data))))
    else
      var data := MsgData(isGroupMsg, isMediaMsg, isSendedByMySelf, m.msgType, false, mediaURL,
                          m.content, from, from, m.toUserName, m);
      Decoded(update, Publish(Event("NewMessage", "/msg" + evtPath, "Server", "End", MessageData(data))))
  }

  /** Messages outside groups, and group messages sent by the user, are
      always published with their text and sender untouched. */
  lemma OwnAndSoloMessagesPublished(ctx: Context, m: RawMessage)
    requires !(IsGroupAddress(m.fromUserName) || IsGroupAddress(m.toUserName))
             || m.fromUserName == ctx.self.userName
    ensures var r := NewMessageEvent(ctx, m);
            && r.delivery.Publish?
            && r.delivery.event.data.msg.content == m.content
            && r.delivery.event.data.msg.senderUserName == m.fromUserName
  {
  }

  /** A group message from someone else whose text does not split into
      exactly two pieces on ":<br/>" is dropped without a roster reload. */
  lemma MalformedGroupMessageDropped(ctx: Context, m: RawMessage)
    requires IsGroupAddress(m.fromUserName) || IsGroupAddress(m.toUserName)
    requires m.fromUserName != ctx.self.userName
    requires |Split(m.content, SenderSeparator)| != 2
    ensures NewMessageEvent(ctx, m).delivery == Drop(None)
  {
  }

  /** A group message from someone else is published exactly when its text
      is "<sender>:<br/><text>" with a single separator and a known sender;
      the published text is the part after the separator and the sender is
      the contact's user name. An unknown sender reloads the group. */
  lemma GroupMessageSender(ctx: Context, m: RawMessage)
    requires IsGroupAddress(m.fromUserName) || IsGroupAddress(m.toUserName)
    requires m.fromUserName != ctx.self.userName
    requires |Split(m.content, SenderSeparator)| == 2
    ensures var infos := Split(m.content, SenderSeparator);
            var r := NewMessageEvent(ctx, m);
            && m.content == infos[0] + SenderSeparator + infos[1]
            && Absent(infos[0], SenderSeparator) && Absent(infos[1], SenderSeparator)
            && (infos[0] !in ctx.contacts ==>
                  r.delivery == Drop(Some(GroupUserName(m.fromUserName, m.toUserName))))
            && (infos[0] in ctx.contacts ==>
                  && r.delivery.Publish?
                  && r.delivery.event.data.msg.content == infos[1]
                  && r.delivery.event.data.msg.senderUserName == ctx.contacts[infos[0]].userName)
  {
    SplitInTwo(m.content, SenderSeparator);
  }

  /** One incremental-sync response: the three change lists with the
      counts the server reports alongside them. */
  datatype SyncResponse = SyncResponse(
    delContactCount: int, delContactList: seq<string>,
    modContactCount: int, modContactList: seq<string>,
    addMsgCount: int, addMsgList: seq<RawMessage>)

  /** Deleted contacts: one /contact/del event each, carrying a contact
      that has only its user name. */
  function DeletedContactEvents(names: seq<string>): (r: seq<Event>)
    ensures |r| == |names|
    ensures forall k :: 0 <= k < |r| ==>
              r[k].path == "/contact/del" && r[k].data == ContactData(Delete, Contact(names[k], "", "", 0))
    ensures OnBus(r)
  {
    if |names| == 0 then []
    else [ContactChangeEvent(Contact(names[0], "", "", 0), Delete)] + DeletedContactEvents(names[1..])
  }

  /** The names found in the contact table, in their original order. */
  function KnownNames(contacts: map<string, Contact>, names: seq<string>): (r: seq<string>)
    ensures |r| <= |names|
    ensures forall n :: n in r <==> n in names && n in contacts
    ensures |names| == 1 ==> r == (if names[0] in contacts then names else [])
  {
    if |names| == 0 then []
    else if names[0] in contacts then [names[0]] + KnownNames(contacts, names[1..])
    else KnownNames(contacts, names[1..])
  }

  /** The filter distributes over concatenation, so together with the
      one-name case it keeps the names in their original order. */
  lemma {:induction false} KnownNamesAppend(contacts: map<string, Contact>, a: seq<string>, b: seq<string>)
    ensures KnownNames(contacts, a + b) == KnownNames(contacts, a) + KnownNames(contacts, b)
    decreases |a|
  {
    if |a| == 0 {
      assert a + b == b;
    } else {
      assert (a + b)[0] == a[0] && (a + b)[1..] == a[1..] + b;
      KnownNamesAppend(contacts, a[1..], b);
    }
  }

  /** One /contact/mod event per name, carrying the stored contact. */
  function ModEvents(contacts: map<string, Contact>, known: seq<string>): (r: seq<Event>)
    requires forall k :: 0 <= k < |known| ==> known[k] in contacts
    ensures |r| == |known|
    ensures forall k :: 0 <= k < |r| ==> r[k] == ContactChangeEvent(contacts[known[k]], Modify)
    ensures OnBus(r)
  {
    if |known| == 0 then []
    else
      var rest := ModEvents(contacts, known[1..]);
      var r := [ContactChangeEvent(contacts[known[0]], Modify)] + rest;
      assert forall k :: 1 <= k < |r| ==> r[k] == rest[k - 1];
      r
  }

  /** Modified contacts: one /contact/mod event for each name found in the
      contact table, carrying the stored contact, in the order of the
      names; unknown names are skipped. */
  function ModifiedContactEvents(contacts: map<string, Contact>, names: seq<string>): (r: seq<Event>)
    ensures var known := KnownNames(contacts, names);
            && |r| == |known|
            && forall k :: 0 <= k < |r| ==> r[k] == ContactChangeEvent(contacts[known[k]], Modify)
    ensures OnBus(r)
  {
    var known := KnownNames(contacts, names);
    assert forall k :: 0 <= k < |known| ==> known[k] in contacts;
    ModEvents(contacts, known)
  }

  /** Every name known: one modification event per name. */
  lemma AllKnownModified(contacts: map<string, Contact>, names: seq<string>)
    requires forall k :: 0 <= k < |names| ==> names[k] in contacts
    ensures KnownNames(contacts, names) == names
    ensures |ModifiedContactEvents(contacts, names)| == |names|
    decreases |names|
  {
    if |names| > 0 {
      AllKnownModified(contacts, names[1..]);
    }
  }

  /** The decoder's delivery decision for each added message. */
  function Deliver(ctx: Context): RawMessage -> Delivery {
    m => NewMessageEvent(ctx, m).delivery
  }

  /** The messages a delivery decision publishes, in order. */
  function Published(deliver: RawMessage -> Delivery, msgs: seq<RawMessage>): (r: seq<RawMessage>)
    ensures |r| <= |msgs|
    ensures forall m :: m in r <==> m in msgs && deliver(m).Publish?
  {
    if |msgs| == 0 then []
    else if deliver(msgs[0]).Publish? then [msgs[0]] + Published(deliver, msgs[1..])
    else Published(deliver, msgs[1..])
  }

  /** The published events of a list of messages, in order. */
  function EventsOf(deliver: RawMessage -> Delivery, msgs: seq<RawMessage>): (r: seq<Event>)
    ensures var pub := Published(deliver, msgs);
            && |r| == |pub|
            && forall k :: 0 <= k < |r| ==> deliver(pub[k]).Publish? && r[k] == deliver(pub[k]).event
  {
    if |msgs| == 0 then []
    else
      var rest := EventsOf(deliver, msgs[1..]);
      match deliver(msgs[0])
      case Publish(e) =>
        var r := [e] + rest;
        assert forall k :: 1 <= k < |r| ==> r[k] == rest[k - 1];
        r
      case Drop(_) => rest
  }

  /** New messages: the published event of each decoded message, in order;
      dropped messages leave no event. */
  function MessageEvents(ctx: Context, msgs: seq<RawMessage>): (r: seq<Event>)
    ensures var pub := Published(Deliver(ctx), msgs);
            && |r| == |pub|
            && forall k :: 0 <= k < |r| ==>
                 NewMessageEvent(ctx, pub[k]).delivery.Publish? && r[k] == NewMessageEvent(ctx, pub[k]).delivery.event
    ensures forall k :: 0 <= k < |r| ==> r[k].path == "/msg/group" || r[k].path == "/msg/solo"
    ensures OnBus(r)
  {
    var r := EventsOf(Deliver(ctx), msgs);
    var pub := Published(Deliver(ctx), msgs);
    assert forall k :: 0 <= k < |r| ==> Deliver(ctx)(pub[k]) == NewMessageEvent(ctx, pub[k]).delivery;
    r
  }

  /** A list of events that the Go code consults only when the count the
      server reports with it is positive. */
  function Gated(count: int, evs: seq<Event>): seq<Event> {
    if count > 0 then evs else []
  }

  /** handleServerEvent: deletions, then modifications, then new messages,
      each list consulted only when its count is positive. The Go code
      publishes each event from its own goroutine, so this order is the
      launch order, not a delivery order. */
  function ServerEvents(ctx: Context, resp: SyncResponse): (r: seq<Event>)
    ensures r == Gated(resp.delContactCount, DeletedContactEvents(resp.delContactList))
               + Gated(resp.modContactCount, ModifiedContactEvents(ctx.contacts, resp.modContactList))
               + Gated(resp.addMsgCount, MessageEvents(ctx, resp.addMsgList))
    ensures OnBus(r)
  {
    var dels := Gated(resp.delContactCount, DeletedContactEvents(resp.delContactList));
    var mods := Gated(resp.modContactCount, ModifiedContactEvents(ctx.contacts, resp.modContactList));
    var msgs := Gated(resp.addMsgCount, MessageEvents(ctx, resp.addMsgList));
    OnBusConcat(dels, mods, msgs);
    dels + mods + msgs
  }

  /** With no positive count, a server update publishes nothing. */
  lemma QuietUpdate(ctx: Context, resp: SyncResponse)
    requires resp.delContactCount <= 0 && resp.modContactCount <= 0 && resp.addMsgCount <= 0
    ensures ServerEvents(ctx, resp) == []
  {
  }

  /** Every event of the sequence is published on one of the bus paths. */
  predicate OnBus(r: seq<Event>) {
    forall k :: 0 <= k < |r| ==> r[k].path in BusPaths
  }

  /** Joining three sequences of bus events keeps them on the bus, with the
      first sequence in front. */
  lemma OnBusConcat(a: seq<Event>, b: seq<Event>, c: seq<Event>)
    requires OnBus(a) && OnBus(b) && OnBus(c)
    ensures OnBus(a + b + c)
    ensures (a + b + c)[..|a|] == a && (a + b + c)[|a|..|a| + |b|] == b && (a + b + c)[|a| + |b|..] == c
  {
    var r := a + b + c;
    forall k | 0 <= k < |r| ensures r[k].path in BusPaths {
      if k < |a| {
        assert r[k] == a[k];
      } else if k < |a| + |b| {
        assert r[k] == b[k - |a|];
      } else {
        assert r[k] == c[k - |a| - |b|];
      }
    }
    assert r[..|a|] == a;
    assert r[|a|..|a| + |b|] == b;
    assert r[|a| + |b|..] == c;
  }

  /** The paths a server update publishes on. */
  const BusPaths: set<string> := {"/contact/del", "/contact/mod", "/msg/group", "/msg/solo"}
}

=== FILE: login.dfy ===
/**
 The QR-code login handshake of wechat/login.go as a state machine. Every
 network reply, cache-file read and presenter answer is an input; what the
 client does in return (requests, presenter callbacks, cache writes and
 deletions) is recorded as an effect log.
 */
module Login {
  import opened Wrappers
  import opened Strings
  import opened Events

  /** The success code of the login endpoints. */
  const HttpOK: string := "200"

  const AppId: string := "wx782c26e4c19acffb"
  const QRCodeMarker: string := "window.QRLogin.code = "
  const QRUUIDMarker: string := "window.QRLogin.uuid = \""
  const CodeMarker: string := "window.code="
  const RedirectMarker: string := "window.redirect_uri=\""
  /** Appended to the confirmed redirect URL. */
  const FunNew: string := "&fun=new"

  /** Decoded JSON, as the cache files hold it; encoding/json decodes every
      number as a float64. */
  datatype Json = JString(str: string) | JNumber(num: real) | JObject(fields: map<string, Json>) | JOther

  /** Go's float-to-integer conversion: the fraction is dropped, rounding
      toward zero. */
  function Truncate(x: real): (n: int)
    ensures x >= 0.0 ==> n >= 0 && n as real <= x < n as real + 1.0
    ensures x < 0.0 ==> n <= 0 && n as real - 1.0 < x <= n as real
  {
    if x >= 0.0 then x.Floor else -((-x).Floor)
  }

  datatype Cookie = Cookie(name: string, value: string)

  /** The session credentials sent with every request. */
  datatype BaseRequest = BaseRequest(
    deviceId: string, passTicket: string, skey: string, wxsid: string, wxuin: int,
    ret: int, message: string)

  const EmptyBaseRequest: BaseRequest := BaseRequest("", "", "", "", 0, 0, "")

  /** The client state the handshake reads and writes. */
  datatype Session = Session(
    baseURL: string, baseRequest: BaseRequest, self: Contact, syncKey: seq<int>, cookies: seq<Cookie>)

  datatype LoginError =
    | Transport(reason: string)          // a request, read or decode failed
    | MarkerMissing(err: SearchError)    // a reply lacks an expected marker
    | UnexpectedCode(code: string)       // jslogin answered with a code other than 200
    | Timeout                            // a status poll answered neither 201 nor 200; Go formats a nil
                                         // error into it, so the code is not part of the error
    | Rejected(message: string)          // the login reply carries a non-zero Ret
    | CacheUnreadable(reason: string)
    | BaseInfoInvalid
    | CookiesInvalid
    | BadURL(url: string)
    | ProcessorRefused(reason: string)
    | InitFailed(reason: string)

  /** A Go call that returns, returns an error, or panics on a failed type
      assertion. */
  datatype Outcome<T> = Ok(value: T) | Err(error: LoginError) | Panic(reason: string)

  /** The string under `key`, when there is one. */
  function StringField(m: map<string, Json>, key: string): Option<string> {
    if key in m && m[key].JString? then Some(m[key].str) else None
  }

  function OrEmpty(o: Option<string>): string {
    if o.Some? then o.value else ""
  }

  /** The cached session restored by `cachedInfo`: the base-info map (whose
      "baseRequest" entry has been replaced by `baseRequest`) and the
      cookies. */
  datatype Cached = Cached(info: map<string, Json>, baseRequest: BaseRequest, cookies: seq<Cookie>)

  /** cachedInfo: the base-info file must hold a "baseRequest" object (the
      Go type assertion panics otherwise) and exactly three keys, and the
      cookie file at least one cookie. */
  function CachedInfo(baseInfoFile: Result<map<string, Json>, string>, cookieFile: Result<seq<Cookie>, string>)
    : (r: Outcome<Cached>)
    ensures baseInfoFile.Failure? ==> r == Err(CacheUnreadable(baseInfoFile.error))
    ensures baseInfoFile.Success? ==>
              var info := baseInfoFile.value;
              && (r.Panic? <==> !("baseRequest" in info && info["baseRequest"].JObject?))
              && (r.Ok? <==> !r.Panic? && |info| == 3 && cookieFile.Success? && |cookieFile.value| > 0)
              && (!r.Panic? && |info| != 3 ==> r == Err(BaseInfoInvalid))
    ensures baseInfoFile.Success? && |baseInfoFile.value| == 3 && !r.Panic? && !r.Ok? ==> r == Err(CookiesInvalid)
    ensures r.Ok? ==>
              && r.value.info.Keys == baseInfoFile.value.Keys
              && r.value.cookies == cookieFile.value
              && r.value.baseRequest.passTicket == OrEmpty(StringField(baseInfoFile.value, "passTicket"))
    ensures r.Ok? ==>
              var bqInfo := baseInfoFile.value["baseRequest"].fields;
              && r.value.baseRequest.deviceId == OrEmpty(StringField(bqInfo, "DeviceID"))
              && r.value.baseRequest.skey == OrEmpty(StringField(bqInfo, "Skey"))
              && r.value.baseRequest.wxsid == OrEmpty(StringField(bqInfo, "Sid"))
              && ("Uin" in bqInfo && bqInfo["Uin"].JNumber? ==> r.value.baseRequest.wxuin == Truncate(bqInfo["Uin"].num))
              && (!("Uin" in bqInfo && bqInfo["Uin"].JNumber?) ==> r.value.baseRequest.wxuin == 0)
              && r.value.baseRequest.ret == 0 && r.value.baseRequest.message == ""
  {
    if baseInfoFile.Failure? then Err(CacheUnreadable(baseInfoFile.error))
    else
      var info := baseInfoFile.value;
      if !("baseRequest" in info && info["baseRequest"].JObject?) then Panic("baseRequest is not an object")
      else
        var bqInfo := info["baseRequest"].fields;
        var uin := if "Uin" in bqInfo && bqInfo["Uin"].JNumber? then Truncate(bqInfo["Uin"].num) else 0;
        var bq := EmptyBaseRequest.(
          deviceId := OrEmpty(StringField(bqInfo, "DeviceID")),
          passTicket := OrEmpty(StringField(info, "passTicket")),
          skey := OrEmpty(StringField(bqInfo, "Skey")),
          wxsid := OrEmpty(StringField(bqInfo, "Sid")),
          wxuin := uin);
        if |info| != 3 then Err(BaseInfoInvalid)
        else if cookieFile.Failure? || |cookieFile.value| == 0 then Err(CookiesInvalid)
        else Ok(Cached(info, bq, cookieFile.value))
  }

  /** fetchUUID on the jslogin reply body: the code between its marker and
      ";" must be 200, and the uuid is the text between its marker and "\";". */
  function FetchUUID(body: Result<string, string>): (r: Result<string, LoginError>)
    ensures body.Failure? ==> r == Failure(Transport(body.error))
    ensures r.Success? <==>
              && body.Success?
              && Search(body.value, QRCodeMarker, ";") == Success(HttpOK)
              && Search(body.value, QRUUIDMarker, "\";").Success?
    ensures r.Success? ==> r.value == Search(body.value, QRUUIDMarker, "\";").value
    ensures body.Success? && Search(body.value, QRCodeMarker, ";").Success?
            && Search(body.value, QRCodeMarker, ";").value != HttpOK
            ==> r == Failure(UnexpectedCode(Search(body.value, QRCodeMarker, ";").value))
  {
    if body.Failure? then Failure(Transport(body.error))
    else
      var ds := body.value;
      match Search(ds, QRCodeMarker, ";")
      case Failure(e) => Failure(MarkerMissing(e))
      case Success(code) =>
        if code != HttpOK then Failure(UnexpectedCode(code))
        else
          match Search(ds, QRUUIDMarker, "\";")
          case Failure(e) => Failure(MarkerMissing(e))
          case Success(uuid) => Success(uuid)
  }

  /** A status code as the server writes it: no ";" inside. */
  lemma PlainCode(code: string)
    requires ';' !in code
    ensures forall j :: 0 <= j < |code| ==> !OccursAt(code + ";", ";", j)
  {
    forall j | 0 <= j < |code| ensures !OccursAt(code + ";", ";", j) {
      assert (code + ";")[j..j + 1] == [code[j]];
    }
  }

  /** A jslogin reply that opens with a code other than 200 is refused
      with that code. */
  lemma FetchUUIDRefusesCode(code: string, rest: string)
    requires ';' !in code && code != HttpOK
    ensures FetchUUID(Success(QRCodeMarker + code + ";" + rest)) == Failure(UnexpectedCode(code))
  {
    PlainCode(code);
    SearchRoundTrip(QRCodeMarker, code, ";", rest);
  }

  /** A jslogin reply that opens with code 200 yields the uuid field. */
  lemma FetchUUIDAccepts(rest: string)
    ensures var body := QRCodeMarker + HttpOK + ";" + rest;
            FetchUUID(Success(body)) ==
              match Search(body, QRUUIDMarker, "\";")
              case Success(uuid) => Success(uuid)
              case Failure(e) => Failure(MarkerMissing(e))
  {
    PlainCode(HttpOK);
    SearchRoundTrip(QRCodeMarker, HttpOK, ";", rest);
  }

  /** The result of one status poll (waitConfirmUUID): the redirect URL,
      the status code, the tip to send next, and the error if any. */
  datatype Poll = Poll(redirect: string, code: string, tip: int, err: Option<LoginError>)

  /** waitConfirmUUID. The tip comes back unchanged only when the request,
      the read or the code parse fails; once a code is parsed it is 0. */
  function WaitConfirm(tip: int, body: Result<string, string>): (r: Poll)
    ensures body.Failure? ==> r == Poll("", "", tip, Some(Transport(body.error)))
    ensures body.Success? && Search(body.value, CodeMarker, ";").Failure? ==>
              r == Poll("", "", tip, Some(MarkerMissing(Search(body.value, CodeMarker, ";").error)))
    ensures body.Success? && Search(body.value, CodeMarker, ";").Success? ==>
              && r.tip == 0
              && r.code == Search(body.value, CodeMarker, ";").value
              && (r.code == "201" ==> r.err.None? && r.redirect == "")
              && (r.code != "201" && r.code != HttpOK ==> r.err == Some(Timeout))
              && (r.code == HttpOK ==>
                    (r.err.None? <==> Search(body.value, RedirectMarker, "\";").Success?)
                    && (r.err.None? ==> r.redirect == Search(body.value, RedirectMarker, "\";").value + FunNew))
  {
    if body.Failure? then Poll("", "", tip, Some(Transport(body.error)))
    else
      var ds := body.value;
      match Search(ds, CodeMarker, ";")
      case Failure(e) => Poll("", "", tip, Some(MarkerMissing(e)))
      case Success(code) =>
        if code == "201" then Poll("", code, 0, None)
        else if code == HttpOK then
          match Search(ds, RedirectMarker, "\";")
          case Failure(e) => Poll("", code, 0, Some(MarkerMissing(e)))
          case Success(uri) => Poll(uri + FunNew, code, 0, None)
        else Poll("", code, 0, Some(Timeout))
  }

  /** A poll answered "201" (scanned, awaiting confirmation) keeps the loop
      going with tip 0. */
  lemma WaitConfirmScanned(tip: int, rest: string)
    ensures WaitConfirm(tip, Success(CodeMarker + "201;" + rest)) == Poll("", "201", 0, None)
  {
    PlainCode("201");
    SearchRoundTrip(CodeMarker, "201", ";", rest);
    assert CodeMarker + "201;" + rest == CodeMarker + "201" + ";" + rest;
  }

  /** A poll answered with an unknown code is a timeout, whatever the tip;
      the code survives only in the poll's code field. */
  lemma WaitConfirmTimeout(tip: int, code: string, rest: string)
    requires ';' !in code && code != "201" && code != HttpOK
    ensures WaitConfirm(tip, Success(CodeMarker + code + ";" + rest)) == Poll("", code, 0, Some(Timeout))
  {
    PlainCode(code);
    SearchRoundTrip(CodeMarker, code, ";", rest);
  }

  /** A poll that does not end the loop: no error and a code other than 200. */
  lemma PollContinuesOnlyOn201(tip: int, body: Result<string, string>)
    requires WaitConfirm(tip, body).err.None? && WaitConfirm(tip, body).code != HttpOK
    ensures WaitConfirm(tip, body).code == "201" && WaitConfirm(tip, body).tip == 0
  {
  }

  /** How the confirmation loop ended, with the tips its requests carried.
      The Go loop polls until it succeeds or fails; the polls are a finite
      input here, so running out of them is a third ending. */
  datatype Confirmation =
    | Confirmed(redirect: string, tips: seq<int>)
    | ConfirmFailed(err: LoginError, tips: seq<int>)
    | PollsExhausted(tips: seq<int>)

  /** A status poll step, from the tip sent and the reply to the parsed
      poll. */
  type Waiter = (int, Result<string, string>) -> Poll

  /** What the loop relies on from waitConfirmUUID: a poll that neither
      fails nor answers 200 is a "201" and asks for tip 0 next, and a
      successful 200 carries a redirect ending in "&fun=new". */
  ghost predicate WellBehaved(wait: Waiter) {
    forall t, b ::
      && (wait(t, b).err.None? && wait(t, b).code != HttpOK ==> wait(t, b).code == "201" && wait(t, b).tip == 0)
      && (wait(t, b).err.None? && wait(t, b).code == HttpOK ==> HasSuffix(wait(t, b).redirect, FunNew))
  }

  lemma WaitConfirmWellBehaved()
    ensures WellBehaved(WaitConfirm)
  {
    forall t, b | WaitConfirm(t, b).err.None? && WaitConfirm(t, b).code == HttpOK
      ensures HasSuffix(WaitConfirm(t, b).redirect, FunNew)
    {
      var u := WaitConfirm(t, b).redirect;
      assert (u[..|u| - |FunNew|] + FunNew)[|u| - |FunNew|..] == FunNew;
    }
  }

  /** The loop of beginLoginFlow's step 3: poll with the current tip until
      the code is 200 or a poll fails. The poll step is a parameter; the
      handshake runs it with WaitConfirm. */
  function ConfirmLoop(wait: Waiter, tip: int, polls: seq<Result<string, string>>): (r: Confirmation)
    requires WellBehaved(wait)
    ensures |r.tips| <= |polls|
    ensures r.PollsExhausted? <==> |r.tips| == |polls| && !LastPollEnds(wait, r.tips, polls)
    ensures |polls| > 0 ==> |r.tips| > 0 && r.tips[0] == tip
    ensures forall k :: 1 <= k < |r.tips| ==> r.tips[k] == 0
    ensures forall k :: 0 <= k < |r.tips| - 1 ==> wait(r.tips[k], polls[k]).code == "201"
    ensures r.Confirmed? ==> HasSuffix(r.redirect, FunNew)
    ensures r.Confirmed? <==> LastPollEnds(wait, r.tips, polls) && LastPoll(wait, r.tips, polls).err.None?
    ensures r.Confirmed? ==> r.redirect == LastPoll(wait, r.tips, polls).redirect
    ensures r.ConfirmFailed? ==> |r.tips| > 0 && Some(r.err) == LastPoll(wait, r.tips, polls).err
    decreases |polls|
  {
    if |polls| == 0 then PollsExhausted([])
    else
      var p := wait(tip, polls[0]);
      if p.err.Some? then ConfirmFailed(p.err.value, [tip])
      else if p.code == HttpOK then Confirmed(p.redirect, [tip])
      else
        var rest := ConfirmLoop(wait, p.tip, polls[1..]);
        var r := Prepend(tip, rest);
        assert forall k :: 1 <= k < |r.tips| ==> r.tips[k] == rest.tips[k - 1];
        assert forall k :: 1 <= k < |r.tips| ==> polls[k] == polls[1..][k - 1];
        assert |rest.tips| > 0 ==> LastPoll(wait, r.tips, polls) == LastPoll(wait, rest.tips, polls[1..]) by {
          if |rest.tips| > 0 {
            assert r.tips[|r.tips| - 1] == rest.tips[|rest.tips| - 1];
            assert polls[|r.tips| - 1] == polls[1..][|rest.tips| - 1];
          }
        }
        r
  }

  /** The outcome of the remaining polls, behind one more poll with `tip`. */
  function Prepend(tip: int, c: Confirmation): (r: Confirmation)
    ensures r.tips == [tip] + c.tips
    ensures r.Confirmed? == c.Confirmed? && r.ConfirmFailed? == c.ConfirmFailed?
    ensures r.Confirmed? ==> r.redirect == c.redirect
    ensures r.ConfirmFailed? ==> r.err == c.err
  {
    match c
    case Confirmed(u, ts) => Confirmed(u, [tip] + ts)
    case ConfirmFailed(e, ts) => ConfirmFailed(e, [tip] + ts)
    case PollsExhausted(ts) => PollsExhausted([tip] + ts)
  }

  /** The last poll made ended the loop. */
  predicate LastPollEnds(wait: Waiter, tips: seq<int>, polls: seq<Result<string, string>>)
    requires |tips| <= |polls|
  {
    |tips| > 0 &&
      var p := LastPoll(wait, tips, polls);
      p.err.Some? || p.code == HttpOK
  }

  /** The result of the last poll made; a placeholder when none was made. */
  function LastPoll(wait: Waiter, tips: seq<int>, polls: seq<Result<string, string>>): Poll
    requires |tips| <= |polls|
  {
    if |tips| == 0 then Poll("", "", 0, None) else wait(tips[|tips| - 1], polls[|tips| - 1])
  }

  /** The handshake's confirmation loop: WaitConfirm, starting with tip 1. */
  function StatusPolls(polls: seq<Result<string, string>>): (r: Confirmation)
    ensures |r.tips| <= |polls|
    ensures |polls| > 0 ==> |r.tips| > 0 && r.tips[0] == 1
    ensures r.Confirmed? ==> |r.tips| > 0 && LastPoll(WaitConfirm, r.tips, polls).code == HttpOK
    ensures r.Confirmed? ==> HasSuffix(r.redirect, FunNew)
    ensures r.ConfirmFailed? ==> Some(r.err) == LastPoll(WaitConfirm, r.tips, polls).err
  {
    WaitConfirmWellBehaved();
    ConfirmLoop(WaitConfirm, 1, polls)
  }

  /** The result of the XML login reply, decoded over the base request. */
  datatype LoginReply = LoginReply(
    ret: int, message: string, skey: string, wxsid: string, wxuin: int, passTicket: string,
    cookies: seq<Cookie>)

  /** The base URL of a login URL: everything before its last "/", or the
      whole URL when it has none. */
  function BaseURLOf(url: string): (r: string)
    ensures r <= url
    ensures '/' !in url ==> r == url
    ensures '/' in url ==> |r| < |url| && url[|r|] == '/' && '/' !in url[|r| + 1..]
  {
    var index := LastIndexOf(url, '/');
    var index := if index == -1 then |url| else index;
    url[..index]
  }

  /** Cutting at the last "/" gives back the directory of a URL. */
  lemma BaseURLOfJoin(dir: string, page: string)
    requires '/' !in page
    ensures BaseURLOf(dir + "/" + page) == dir
  {
    var u := dir + "/" + page;
    assert u[|dir|] == '/';
    var r := BaseURLOf(u);
    assert forall j :: |dir| < j < |u| ==> u[j] == page[j - |dir| - 1];
    assert forall j :: |r| < j < |u| ==> u[j] == u[|r| + 1..][j - |r| - 1];
    assert |r| == |dir|;
  }

  /** What the handshake does outside the session. */
  datatype Effect =
    | CacheRead
    | FetchUUIDRequest
    | ProcessUUID(uuid: string)
    | PollRequest(tip: int)
    | DidConfirm(err: Option<LoginError>)
    | LoginRequest(url: string)
    | WriteBaseInfo(baseURL: string, passTicket: string, baseRequest: BaseRequest)
    | WriteCookieCache(cookies: seq<Cookie>)
    | DeleteCookieCache
    | InitRequest

  /** login: decode the reply over the base request, reject a non-zero Ret,
      otherwise derive the base URL and refresh both caches (the cookie
      cache only when the reply carries cookies). */
  function DoLogin(s: Session, url: string, reply: Result<LoginReply, string>)
    : (r: (Session, seq<Effect>, Option<LoginError>))
    ensures reply.Failure? ==> r == (s, [], Some(Transport(reply.error)))
    ensures reply.Success? && reply.value.ret != 0 ==>
              r.1 == [] && r.2 == Some(Rejected(reply.value.message)) && r.0.baseURL == s.baseURL
    ensures reply.Success? && reply.value.ret == 0 ==>
              && r.2.None?
              && r.0.baseURL == BaseURLOf(url)
              && |r.1| >= 1
              && r.1[0] == WriteBaseInfo(r.0.baseURL, r.0.baseRequest.passTicket, r.0.baseRequest)
              && (|r.1| == 2 <==> |reply.value.cookies| > 0)
              && (|r.1| == 2 ==> r.1[1] == WriteCookieCache(reply.value.cookies))
    ensures forall k :: 0 <= k < |r.1| ==> r.1[k].WriteBaseInfo? || r.1[k].WriteCookieCache?
    ensures reply.Success? ==>
              var x := reply.value;
              && r.0.baseRequest.deviceId == s.baseRequest.deviceId
              && r.0.baseRequest.ret == x.ret && r.0.baseRequest.message == x.message
              && r.0.baseRequest.skey == x.skey && r.0.baseRequest.wxsid == x.wxsid
              && r.0.baseRequest.wxuin == x.wxuin && r.0.baseRequest.passTicket == x.passTicket
              && r.0.self == s.self && r.0.syncKey == s.syncKey && r.0.cookies == s.cookies
  {
    if reply.Failure? then (s, [], Some(Transport(reply.error)))
    else
      var x := reply.value;
      var bq := s.baseRequest.(ret := x.ret, message := x.message, skey := x.skey, wxsid := x.wxsid,
                               wxuin := x.wxuin, passTicket := x.passTicket);
      var s1 := s.(baseRequest := bq);
      if bq.ret != 0 then (s1, [], Some(Rejected(bq.message)))
      else
        var s2 := s1.(baseURL := BaseURLOf(url));
        var writes := [WriteBaseInfo(s2.baseURL, bq.passTicket, bq)]
                      + (if |x.cookies| == 0 then [] else [WriteCookieCache(x.cookies)]);
        (s2, writes, None)
  }

  /** The webwxinit reply. */
  datatype InitReply = InitReply(skey: string, user: Contact, syncKey: seq<int>)

  /** init: on success the session takes the new skey, the logged-in user
      and the sync key; on failure it is unchanged. */
  function Init(s: Session, reply: Result<InitReply, string>): (r: (Session, Option<LoginError>))
    ensures reply.Failure? <==> r.1.Some?
    ensures reply.Failure? ==> r.0 == s && r.1 == Some(InitFailed(reply.error))
    ensures reply.Success? ==>
              && r.0.self == reply.value.user && r.0.syncKey == reply.value.syncKey
              && r.0.baseRequest == s.baseRequest.(skey := reply.value.skey)
              && r.0.baseURL == s.baseURL
  {
    if reply.Failure? then (s, Some(InitFailed(reply.error)))
    else
      var x := reply.value;
      (s.(baseRequest := s.baseRequest.(skey := x.skey), self := x.user, syncKey := x.syncKey), None)
  }

  /** Everything the handshake receives from outside. */
  datatype World = World(
    baseInfoFile: Result<map<string, Json>, string>,
    cookieFile: Result<seq<Cookie>, string>,
    baseURLParses: bool,
    jslogin: Result<string, string>,
    processUUID: Option<string>,
    polls: seq<Result<string, string>>,
    redirectParses: bool,
    loginReply: Result<LoginReply, string>,
    initReply: Result<InitReply, string>)

  datatype Ending = LoggedIn | Failed(err: LoginError) | Panicked(reason: string) | OutOfPolls

  datatype Flow = Flow(session: Session, effects: seq<Effect>, ending: Ending)

  function PollRequests(tips: seq<int>): (r: seq<Effect>)
    ensures |r| == |tips|
    ensures forall k :: 0 <= k < |r| ==> r[k] == PollRequest(tips[k])
  {
    if |tips| == 0 then [] else [PollRequest(tips[0])] + PollRequests(tips[1..])
  }

  /** The panic of the login step when http.NewRequest rejected the
      redirect URL: Go drops the error and hands a nil request to the
      client. */
  const NilLoginRequest: string := "nil login request"

  /** The login request and init succeed: the redirect URL parses, the
      login reply arrives with a zero Ret, and init succeeds. */
  predicate LoginSucceeds(w: World) {
    && w.redirectParses
    && w.loginReply.Success? && w.loginReply.value.ret == 0
    && w.initReply.Success?
  }

  /** The cached session resumes: the cache is usable, holds a base URL
      string that parses, and init succeeds. */
  predicate ResumeSucceeds(w: World) {
    var c := CachedInfo(w.baseInfoFile, w.cookieFile);
    && c.Ok?
    && StringField(c.value.info, "baseURL").Some?
    && w.baseURLParses
    && w.initReply.Success?
  }

  /** beginLoginFlow: a cache whose base request is not an object panics;
      a usable cache is resumed; any other cache error falls back to the
      interactive QR-code login. */
  function BeginLoginFlow(s: Session, w: World): (r: Flow)
    ensures |r.effects| > 0 && r.effects[0] == CacheRead
    ensures CachedInfo(w.baseInfoFile, w.cookieFile).Panic? ==> r.effects == [CacheRead] && r.ending.Panicked?
  {
    match CachedInfo(w.baseInfoFile, w.cookieFile)
    case Panic(why) => Flow(s, [CacheRead], Panicked(why))
    case Ok(c) => ResumeCached(s, c, w)
    case Err(_) => QRLogin(s, w)
  }

  /** The resume branch: restore the cached session and call init; a failed
      init deletes the cookie cache. */
  function ResumeCached(s: Session, c: Cached, w: World): (r: Flow)
    ensures |r.effects| > 0 && r.effects[0] == CacheRead
    ensures forall k :: 0 <= k < |r.effects| ==>
              r.effects[k] in {CacheRead, InitRequest, DeleteCookieCache}
    ensures var url := StringField(c.info, "baseURL");
            && (url.None? ==> r.effects == [CacheRead] && r.ending.Panicked?)
            && (url.Some? && !w.baseURLParses ==> r.ending == Failed(BadURL(url.value)))
            && (url.Some? && w.baseURLParses && w.initReply.Failure? ==>
                  r.ending == Failed(InitFailed(w.initReply.error)) && DeleteCookieCache in r.effects)
            && (r.ending == LoggedIn <==> url.Some? && w.baseURLParses && w.initReply.Success?)
    ensures r.ending == LoggedIn ==>
              && r.effects == [CacheRead, InitRequest]
              && r.session.baseURL == StringField(c.info, "baseURL").value
              && r.session.cookies == c.cookies
              && r.session.baseRequest == c.baseRequest.(skey := w.initReply.value.skey)
              && r.session.self == w.initReply.value.user
  {
    var url := StringField(c.info, "baseURL");
    if url.None? then Flow(s, [CacheRead], Panicked("baseURL is not a string"))
    else
      var s1 := s.(baseURL := url.value, baseRequest := c.baseRequest);
      if !w.baseURLParses then Flow(s1, [CacheRead], Failed(BadURL(url.value)))
      else
        var s2 := s1.(cookies := c.cookies);
        var (s3, e) := Init(s2, w.initReply);
        if e.Some? then Flow(s3, [CacheRead, InitRequest, DeleteCookieCache], Failed(e.value))
        else Flow(s3, [CacheRead, InitRequest], LoggedIn)
  }

  /** The interactive branch: fetch a uuid, hand it to the presenter, poll
      until confirmed, log in and call init. */
  function QRLogin(s: Session, w: World): (r: Flow)
    ensures |r.effects| > 0 && r.effects[0] == CacheRead
    ensures DeleteCookieCache !in r.effects
    ensures var uuid := FetchUUID(w.jslogin);
            && (uuid.Failure? ==> r.effects == [CacheRead, FetchUUIDRequest] && r.ending == Failed(uuid.error))
            && (uuid.Success? && w.processUUID.Some? ==>
                  r.effects == [CacheRead, FetchUUIDRequest, ProcessUUID(uuid.value)]
                  && r.ending == Failed(ProcessorRefused(w.processUUID.value)))
            && (uuid.Success? && w.processUUID.None? ==> r.ending == Confirm(s, w).2)
  {
    match FetchUUID(w.jslogin)
    case Failure(e) => Flow(s, [CacheRead, FetchUUIDRequest], Failed(e))
    case Success(uuid) =>
      var e1 := [CacheRead, FetchUUIDRequest, ProcessUUID(uuid)];
      if w.processUUID.Some? then Flow(s, e1, Failed(ProcessorRefused(w.processUUID.value)))
      else
        var (s1, tail, ending) := Confirm(s, w);
        Flow(s1, e1 + tail, ending)
  }

  /** Step 3 onwards: the poll requests, the presenter callback, then login
      and init once confirmed. */
  function Confirm(s: Session, w: World): (r: (Session, seq<Effect>, Ending))
    ensures DeleteCookieCache !in r.1
    ensures var loop := StatusPolls(w.polls);
            && (loop.PollsExhausted? ==> r.2 == OutOfPolls)
            && (loop.ConfirmFailed? ==> r.2 == Failed(loop.err))
            && (r.2 == LoggedIn <==> loop.Confirmed? && LoginSucceeds(w))
  {
    ConfirmAfter(s, StatusPolls(w.polls), w)
  }

  /** Step 3 onwards, once the confirmation loop has ended as `loop`: the
      poll requests, then (unless the polls ran out) the presenter call with
      the loop's error, then the login request and init when confirmed. */
  function ConfirmAfter(s: Session, loop: Confirmation, w: World): (r: (Session, seq<Effect>, Ending))
    ensures DeleteCookieCache !in r.1
    ensures |r.1| >= |loop.tips| && r.1[..|loop.tips|] == PollRequests(loop.tips)
    ensures loop.PollsExhausted? ==> r == (s, PollRequests(loop.tips), OutOfPolls)
    ensures loop.ConfirmFailed? ==>
              && |r.1| == |loop.tips| + 1 && r.1[|loop.tips|] == DidConfirm(Some(loop.err))
              && r.2 == Failed(loop.err) && r.0 == s
    ensures loop.Confirmed? ==>
              && |r.1| > |loop.tips| && r.1[|loop.tips|] == DidConfirm(None)
              && r.2 == Finish(s, loop.redirect, w).2
              && (w.redirectParses ==> |r.1| > |loop.tips| + 1 && r.1[|loop.tips| + 1] == LoginRequest(loop.redirect))
    ensures r.2 == LoggedIn <==> loop.Confirmed? && LoginSucceeds(w)
  {
    var polls := PollRequests(loop.tips);
    assert DeleteCookieCache !in polls by {
      assert forall k :: 0 <= k < |polls| ==> polls[k].PollRequest?;
    }
    match loop
    case PollsExhausted(tips) => (s, polls, OutOfPolls)
    case ConfirmFailed(err, tips) => (s, polls + [DidConfirm(Some(err))], Failed(err))
    case Confirmed(redirect, tips) =>
      var (s1, tail, ending) := Finish(s, redirect, w);
      assert DeleteCookieCache !in tail;
      var r := polls + [DidConfirm(None)] + tail;
      assert r[..|polls|] == polls;
      (s1, r, ending)
  }

  /** The login request and init: log in on the redirect URL, then init.
      A redirect URL that does not parse panics before any request. */
  function Finish(s: Session, redirect: string, w: World): (r: (Session, seq<Effect>, Ending))
    ensures !w.redirectParses ==> r == (s, [], Panicked(NilLoginRequest))
    ensures w.redirectParses ==> |r.1| > 0 && r.1[0] == LoginRequest(redirect)
    ensures forall k :: 0 <= k < |r.1| ==> !r.1[k].DidConfirm? && r.1[k] != DeleteCookieCache
    ensures w.redirectParses && w.loginReply.Failure? ==> r.2 == Failed(Transport(w.loginReply.error))
    ensures w.redirectParses && w.loginReply.Success? && w.loginReply.value.ret != 0 ==>
              r.2 == Failed(Rejected(w.loginReply.value.message))
    ensures w.redirectParses && w.loginReply.Success? && w.loginReply.value.ret == 0 && w.initReply.Failure? ==>
              r.2 == Failed(InitFailed(w.initReply.error))
    ensures r.2 == LoggedIn <==> LoginSucceeds(w)
    ensures r.2 == LoggedIn ==>
              && r.1[|r.1| - 1] == InitRequest
              && r.0.baseURL == BaseURLOf(redirect)
              && r.0.self == w.initReply.value.user
              && r.0.baseRequest.skey == w.initReply.value.skey
  {
    if !w.redirectParses then (s, [], Panicked(NilLoginRequest))
    else
      var (s1, writes, err) := DoLogin(s, redirect, w.loginReply);
      if err.Some? then (s1, [LoginRequest(redirect)] + writes, Failed(err.value))
      else
        var (s2, ierr) := Init(s1, w.initReply);
        (s2, [LoginRequest(redirect)] + writes + [InitRequest], if ierr.Some? then Failed(ierr.value) else LoggedIn)
  }

  /** The interactive steps were reached: no usable cache, a uuid was
      fetched and the presenter accepted it. */
  predicate ReachesPolling(w: World) {
    && CachedInfo(w.baseInfoFile, w.cookieFile).Err?
    && FetchUUID(w.jslogin).Success?
    && w.processUUID.None?
  }

  /** The number of presenter confirmation callbacks in an effect log. */
  function Confirmations(es: seq<Effect>): nat {
    if |es| == 0 then 0 else (if es[0].DidConfirm? then 1 else 0) + Confirmations(es[1..])
  }

  lemma {:induction false} ConfirmationsAppend(a: seq<Effect>, b: seq<Effect>)
    ensures Confirmations(a + b) == Confirmations(a) + Confirmations(b)
  {
    if |a| == 0 {
      assert a + b == b;
    } else {
      assert (a + b)[1..] == a[1..] + b;
      ConfirmationsAppend(a[1..], b);
    }
  }

  lemma {:induction false} NoConfirmations(es: seq<Effect>)
    requires forall k :: 0 <= k < |es| ==> !es[k].DidConfirm?
    ensures Confirmations(es) == 0
  {
    if |es| > 0 {
      NoConfirmations(es[1..]);
    }
  }

  /** Step 3 onwards calls the presenter once, unless the polls ran out. */
  lemma ConfirmCallsPresenterOnce(s: Session, w: World)
    ensures var loop := StatusPolls(w.polls);
            var es := Confirm(s, w).1;
            && Confirmations(es) == (if loop.PollsExhausted? then 0 else 1)
            && (DidConfirm(None) in es <==> loop.Confirmed?)
  {
    ConfirmAfterCallsPresenterOnce(s, StatusPolls(w.polls), w);
  }

  /** Whatever the loop's ending, what follows it calls the presenter once,
      unless the polls ran out, and without error exactly on a
      confirmation. */
  lemma ConfirmAfterCallsPresenterOnce(s: Session, loop: Confirmation, w: World)
    ensures var es := ConfirmAfter(s, loop, w).1;
            && Confirmations(es) == (if loop.PollsExhausted? then 0 else 1)
            && (DidConfirm(None) in es <==> loop.Confirmed?)
  {
    var polls := PollRequests(loop.tips);
    var es := ConfirmAfter(s, loop, w).1;
    NoConfirmations(polls);
    match loop
    case PollsExhausted(tips) =>
    case ConfirmFailed(err, tips) =>
      ConfirmationsAppend(polls, [DidConfirm(Some(err))]);
      assert es == polls + [DidConfirm(Some(err))];
    case Confirmed(redirect, tips) =>
      var tail := Finish(s, redirect, w).1;
      NoConfirmations(tail);
      assert es == polls + [DidConfirm(None)] + tail;
      ConfirmationsAppend(polls, [DidConfirm(None)]);
      ConfirmationsAppend(polls + [DidConfirm(None)], tail);
      assert es[|polls|] == DidConfirm(None);
  }

  /** Without reaching the polling steps the presenter is never called. */
  lemma NoPollingNoConfirm(s: Session, w: World)
    requires !ReachesPolling(w)
    ensures forall k :: 0 <= k < |BeginLoginFlow(s, w).effects| ==> !BeginLoginFlow(s, w).effects[k].DidConfirm?
  {
  }

  /** Reaching the polling steps, the flow is the three opening effects
      followed by step 3 onwards. */
  lemma PollingFlow(s: Session, w: World)
    ensures ReachesPolling(w) ==>
              BeginLoginFlow(s, w).effects
              == [CacheRead, FetchUUIDRequest, ProcessUUID(FetchUUID(w.jslogin).value)] + Confirm(s, w).1
  {
  }

  /** UUIDDidConfirm is called exactly once when polling ends by success or
      failure, and never otherwise (a usable cache, a failed uuid fetch or
      a refusing presenter skip it). */
  lemma ConfirmExactlyOnce(s: Session, w: World)
    ensures Confirmations(BeginLoginFlow(s, w).effects) ==
              (if ReachesPolling(w) && !StatusPolls(w.polls).PollsExhausted? then 1 else 0)
  {
    if !ReachesPolling(w) {
      NoPollingNoConfirm(s, w);
      NoConfirmations(BeginLoginFlow(s, w).effects);
    } else {
      PollingConfirmations(s, w);
      ConfirmCallsPresenterOnce(s, w);
    }
  }

  /** Reaching the polling steps, the presenter calls are those of step 3
      onwards. */
  lemma PollingConfirmations(s: Session, w: World)
    ensures ReachesPolling(w) ==>
              Confirmations(BeginLoginFlow(s, w).effects) == Confirmations(Confirm(s, w).1)
  {
    if ReachesPolling(w) {
      PollingFlow(s, w);
      OpeningConfirmations(FetchUUID(w.jslogin).value, Confirm(s, w).1);
    }
  }

  /** The three opening effects contain no presenter call. */
  lemma OpeningConfirmations(uuid: string, tail: seq<Effect>)
    ensures Confirmations([CacheRead, FetchUUIDRequest, ProcessUUID(uuid)] + tail) == Confirmations(tail)
  {
    var e1 := [CacheRead, FetchUUIDRequest, ProcessUUID(uuid)];
    NoConfirmations(e1);
    ConfirmationsAppend(e1, tail);
  }

  /** The presenter is told of success (a callback without error) exactly
      when the scan was confirmed. */
  lemma ConfirmSuccessReported(s: Session, w: World)
    ensures DidConfirm(None) in BeginLoginFlow(s, w).effects <==>
              ReachesPolling(w) && StatusPolls(w.polls).Confirmed?
  {
    var es := BeginLoginFlow(s, w).effects;
    if !ReachesPolling(w) {
      NoPollingNoConfirm(s, w);
    } else {
      var e1 := [CacheRead, FetchUUIDRequest, ProcessUUID(FetchUUID(w.jslogin).value)];
      var tail := Confirm(s, w).1;
      PollingFlow(s, w);
      ConfirmCallsPresenterOnce(s, w);
      assert DidConfirm(None) in es <==> DidConfirm(None) in tail;
    }
  }

  /** How the whole flow ends: logged in exactly when the cached session
      resumes or the interactive steps are reached, confirmed and the login
      request and init succeed; a reached polling loop that fails or runs out ends the
      flow that way. */
  lemma LoginFlowEnding(s: Session, w: World)
    ensures var r := BeginLoginFlow(s, w);
            r.ending == LoggedIn <==>
              ResumeSucceeds(w) || (ReachesPolling(w) && StatusPolls(w.polls).Confirmed? && LoginSucceeds(w))
    ensures var r := BeginLoginFlow(s, w);
            var loop := StatusPolls(w.polls);
            && (ReachesPolling(w) && loop.ConfirmFailed? ==> r.ending == Failed(loop.err))
            && (ReachesPolling(w) && loop.PollsExhausted? ==> r.ending == OutOfPolls)
            && (ReachesPolling(w) && loop.Confirmed? && !w.redirectParses ==> r.ending == Panicked(NilLoginRequest))
  {
  }

  /** With a usable cache the client never fetches a uuid, never calls the
      presenter and never polls; a failed init then deletes the cookie
      cache and returns the init error. */
  lemma CacheSkipsQRCode(s: Session, w: World)
    requires CachedInfo(w.baseInfoFile, w.cookieFile).Ok?
    ensures var r := BeginLoginFlow(s, w);
            && FetchUUIDRequest !in r.effects
            && (forall k :: 0 <= k < |r.effects| ==>
                  !r.effects[k].ProcessUUID? && !r.effects[k].DidConfirm? && !r.effects[k].PollRequest?)
            && (var c := CachedInfo(w.baseInfoFile, w.cookieFile).value;
                StringField(c.info, "baseURL").Some? && w.baseURLParses && w.initReply.Failure? ==>
                  && r.ending == Failed(InitFailed(w.initReply.error))
                  && r.effects[|r.effects| - 1] == DeleteCookieCache)
  {
  }

  /** The cookie cache is deleted only by a failed init on the resume
      branch. */
  lemma CookieCacheDeletedOnlyOnResume(s: Session, w: World)
    ensures var c := CachedInfo(w.baseInfoFile, w.cookieFile);
            DeleteCookieCache in BeginLoginFlow(s, w).effects <==>
              && c.Ok?
              && StringField(c.value.info, "baseURL").Some?
              && w.baseURLParses
              && w.initReply.Failure?
  {
  }

  /** The status polls carry tip 1 first and tip 0 afterwards, and follow
      the presenter call directly. */
  lemma PollTips(s: Session, w: World)
    ensures ReachesPolling(w) && |w.polls| > 0 ==>
              var r := BeginLoginFlow(s, w);
              var n := |StatusPolls(w.polls).tips|;
              && 1 <= n <= |w.polls|
              && |r.effects| >= 3 + n
              && r.effects[2].ProcessUUID?
              && r.effects[3] == PollRequest(1)
              && forall k :: 4 <= k < 3 + n ==> r.effects[k] == PollRequest(0)
  {
    if ReachesPolling(w) && |w.polls| > 0 {
      var tips := StatusPolls(w.polls).tips;
      PollingFlow(s, w);
      ConfirmStartsWithPolls(s, w);
      OpeningThenPolls(FetchUUID(w.jslogin).value, Confirm(s, w).1, tips);
    }
  }

  /** The opening effects followed by a log that starts with the poll
      requests. */
  lemma OpeningThenPolls(uuid: string, tail: seq<Effect>, tips: seq<int>)
    requires |tail| >= |tips| && forall k :: 0 <= k < |tips| ==> tail[k] == PollRequest(tips[k])
    ensures var es := [CacheRead, FetchUUIDRequest, ProcessUUID(uuid)] + tail;
            && |es| >= 3 + |tips| && es[2] == ProcessUUID(uuid)
            && forall k :: 3 <= k < 3 + |tips| ==> es[k] == PollRequest(tips[k - 3])
  {
  }

  /** Step 3 onwards opens with one poll request per poll, carrying its tip. */
  lemma ConfirmStartsWithPolls(s: Session, w: World)
    ensures var tips := StatusPolls(w.polls).tips;
            var es := Confirm(s, w).1;
            |es| >= |tips| && forall k :: 0 <= k < |tips| ==> es[k] == PollRequest(tips[k])
  {
    var tips := StatusPolls(w.polls).tips;
    var polls := PollRequests(tips);
    var es := Confirm(s, w).1;
    assert es[..|polls|] == polls;
  }

  /** The number of failed re-login attempts. */
  function Failures(attempts: seq<bool>): (n: nat)
    ensures n <= |attempts|
  {
    if |attempts| == 0 then 0 else (if attempts[0] then 0 else 1) + Failures(attempts[1..])
  }

  /** What keepAlive does over a run of re-login attempts: the minutes it
      waits before each retry, the final retry counter, and the values it
      sends on the login-state channel. */
  datatype Retries = Retries(waits: seq<int>, retryTimes: int, loginStates: seq<int>)

  /** keepAlive. `attempts[k]` tells whether the k-th re-login succeeded (a
      success runs the sync loop until it fails, then starts over). A
      failure waits `retryTimes` minutes and then increments the counter;
      nothing resets it. */
  function KeepAlive(retryTimes: int, attempts: seq<bool>): (r: Retries)
    ensures |r.waits| == Failures(attempts)
    ensures forall k :: 0 <= k < |r.waits| ==> r.waits[k] == retryTimes + k
    ensures r.retryTimes == retryTimes + Failures(attempts)
    ensures |r.loginStates| == 2 * (|attempts| - Failures(attempts))
    ensures forall k :: 0 <= k < |r.loginStates| ==> r.loginStates[k] == (if k % 2 == 0 then 1 else -1)
    decreases |attempts|
  {
    if |attempts| == 0 then Retries([], retryTimes, [])
    else if !attempts[0] then
      var rest := KeepAlive(retryTimes + 1, attempts[1..]);
      Retries([retryTimes] + rest.waits, rest.retryTimes, rest.loginStates)
    else
      var rest := KeepAlive(retryTimes, attempts[1..]);
      Retries(rest.waits, rest.retryTimes, [1, -1] + rest.loginStates)
  }

  /** A successful login between two failures does not reset the wait. */
  lemma KeepAliveNeverResets(n: int)
    ensures KeepAlive(n, [false, true, false]).waits == [n, n + 1]
  {
    assert [false, true, false][1..] == [true, false];
    assert [true, false][1..] == [false];
  }
}

=== FILE: paths.dfy ===
/**
 Routing-path normalisation: `cleanPath` forces a leading slash and then
 applies the lexical rules of Go's `path.Clean`. Because the input is always
 rooted by then, Clean is modelled on slash-separated elements: empty and "."
 elements are dropped, ".." removes the previous element (and is dropped at
 the root), and the survivors are joined behind a single leading slash.
 */
module Paths {
  import opened Strings

  /** A path element that survives cleaning. */
  predicate IsName(seg: string) {
    seg != "" && seg != "." && seg != ".." && '/' !in seg
  }

  predicate AllNames(segs: seq<string>) {
    forall k :: 0 <= k < |segs| ==> IsName(segs[k])
  }

  /** The pieces of a path split on "/": none holds a slash. */
  predicate SlashFree(segs: seq<string>) {
    forall k :: 0 <= k < |segs| ==> '/' !in segs[k]
  }

  /** The rooted path whose elements are `segs`. */
  function Rooted(segs: seq<string>): (r: string)
    ensures |r| >= 1 && r[0] == '/'
  {
    if |segs| == 0 then "/" else "/" + Join(segs, "/")
  }

  /** One element of the walk: an empty element and "." are dropped, ".."
      removes the last surviving name (and is dropped at the root), and any
      other element is a name and is kept. */
  function Step(stack: seq<string>, x: string): (r: seq<string>)
    requires AllNames(stack) && '/' !in x
    ensures AllNames(r)
  {
    if x == "" || x == "." then stack
    else if x == ".." then (if |stack| > 0 then stack[..|stack| - 1] else stack)
    else stack + [x]
  }

  /** Walks the elements left to right over a stack of surviving names. */
  function Resolve(stack: seq<string>, segs: seq<string>): (r: seq<string>)
    requires AllNames(stack) && SlashFree(segs)
    ensures AllNames(r)
    decreases |segs|
  {
    if |segs| == 0 then stack else Resolve(Step(stack, segs[0]), segs[1..])
  }

  /** The walk over one more element is one more step. */
  lemma {:induction false} ResolveSnoc(stack: seq<string>, segs: seq<string>, x: string)
    requires AllNames(stack) && SlashFree(segs) && '/' !in x
    ensures SlashFree(segs + [x])
    ensures Resolve(stack, segs + [x]) == Step(Resolve(stack, segs), x)
    decreases |segs|
  {
    var all := segs + [x];
    assert forall k :: 0 <= k < |all| ==> all[k] == (if k < |segs| then segs[k] else x);
    if |segs| == 0 {
      assert all == [x];
    } else {
      assert all[0] == segs[0] && all[1..] == segs[1..] + [x];
      ResolveSnoc(Step(stack, segs[0]), segs[1..], x);
    }
  }

  /** A one-character needle occurs exactly where that character is. */
  lemma SlashOccurs(s: string, j: int)
    ensures OccursAt(s, "/", j) <==> 0 <= j < |s| && s[j] == '/'
  {
  }

  lemma NoSlashAbsent(s: string)
    requires '/' !in s
    ensures Absent(s, "/")
  {
    forall j | 0 <= j <= |s| ensures !OccursAt(s, "/", j) {
      SlashOccurs(s, j);
    }
  }

  /** The elements of a path, split on "/", contain no slash. */
  lemma PiecesHaveNoSlash(p: string)
    ensures SlashFree(Split(p, "/"))
  {
    var pieces := Split(p, "/");
    SplitPiecesAbsent(p, "/");
    forall k | 0 <= k < |pieces| ensures '/' !in pieces[k] {
      if '/' in pieces[k] {
        var j :| 0 <= j < |pieces[k]| && pieces[k][j] == '/';
        SlashOccurs(pieces[k], j);
      }
    }
  }

  /** Go's path.Clean on a rooted path. */
  function Clean(p: string): (r: string)
    requires |p| > 0 && p[0] == '/'
    ensures |r| >= 1 && r[0] == '/'
    ensures r == "/" || r[|r| - 1] != '/'
    ensures forall k :: 0 <= k < |r| - 1 ==> !(r[k] == '/' && r[k + 1] == '/')
  {
    var segs := Elements(p);
    RootedShape(segs);
    Rooted(segs)
  }

  /** The names that survive cleaning a rooted path. */
  function Elements(p: string): (segs: seq<string>)
    ensures AllNames(segs)
  {
    PiecesHaveNoSlash(p);
    Resolve([], Split(p, "/"))
  }

  /** events.go cleanPath: "" is the root; a missing leading slash is added. */
  function CleanPath(p: string): (r: string)
    ensures p == "" ==> r == "/"
    ensures |r| >= 1 && r[0] == '/'
    ensures r == "/" || r[|r| - 1] != '/'
    ensures forall k :: 0 <= k < |r| - 1 ==> !(r[k] == '/' && r[k + 1] == '/')
  {
    if p == "" then "/" else Clean(if p[0] != '/' then "/" + p else p)
  }

  /** A rooted path of names ends in a name and never doubles a slash. */
  lemma RootedShape(segs: seq<string>)
    requires AllNames(segs)
    ensures var r := Rooted(segs);
            && (r == "/" || r[|r| - 1] != '/')
            && forall k :: 0 <= k < |r| - 1 ==> !(r[k] == '/' && r[k + 1] == '/')
  {
    if |segs| > 0 {
      JoinShape(segs);
    }
  }

  /** Joined names start and end with a non-slash and never double a slash. */
  lemma {:induction false} JoinShape(segs: seq<string>)
    requires |segs| > 0 && AllNames(segs)
    ensures var j := Join(segs, "/");
            && |j| > 0 && j[0] != '/' && j[|j| - 1] != '/'
            && forall k :: 0 <= k < |j| - 1 ==> !(j[k] == '/' && j[k + 1] == '/')
  {
    var x := segs[0];
    assert IsName(x);
    if |segs| > 1 {
      var rest := Join(segs[1..], "/");
      JoinShape(segs[1..]);
      var j := x + "/" + rest;
      assert Join(segs, "/") == j;
      forall k | 0 <= k < |j| - 1 ensures !(j[k] == '/' && j[k + 1] == '/') {
        if k < |x| - 1 {
          assert j[k] == x[k];
        } else if k == |x| - 1 {
          assert j[k] == x[k];
        } else if k == |x| {
          assert j[k + 1] == rest[0];
        } else {
          assert j[k] == rest[k - |x| - 1] && j[k + 1] == rest[k - |x|];
        }
      }
    }
  }

  /** Splitting a joined list of slash-free pieces on "/" gives the pieces
      back. */
  lemma {:induction false} SplitJoinedPieces(segs: seq<string>)
    requires |segs| > 0 && SlashFree(segs)
    ensures Split(Join(segs, "/"), "/") == segs
  {
    var x := segs[0];
    NoSlashAbsent(x);
    if |segs| == 1 {
      assert IndexOf(x, "/") == -1;
    } else {
      var rest := Join(segs[1..], "/");
      var s := x + "/" + rest;
      assert Join(segs, "/") == s;
      SlashOccurs(s, |x|);
      forall j | 0 <= j < |x| ensures !OccursAt(s, "/", j) {
        SlashOccurs(s, j);
        assert s[j] == x[j];
      }
      assert FirstOccurrence(s, "/", |x|);
      FirstOccurrenceUnique(s, "/", |x|, IndexOf(s, "/"));
      assert s[..|x|] == x;
      assert s[|x| + 1..] == rest;
      SplitJoinedPieces(segs[1..]);
    }
  }

  /** The elements of a rooted path of names are "" followed by the names. */
  lemma SplitRooted(segs: seq<string>)
    requires AllNames(segs)
    ensures Split(Rooted(segs), "/") == if |segs| == 0 then ["", ""] else [""] + segs
  {
    var r := Rooted(segs);
    SlashOccurs(r, 0);
    assert FirstOccurrence(r, "/", 0);
    FirstOccurrenceUnique(r, "/", 0, IndexOf(r, "/"));
    assert r[..0] == "";
    if |segs| == 0 {
      NoSlashAbsent("");
      assert IndexOf("", "/") == -1;
      assert r[1..] == "";
    } else {
      assert r[1..] == Join(segs, "/");
      SplitJoinedPieces(segs);
    }
  }

  /** Names pass through the walk unchanged. */
  lemma {:induction false} ResolveNames(stack: seq<string>, segs: seq<string>)
    requires AllNames(stack) && AllNames(segs)
    ensures Resolve(stack, segs) == stack + segs
    decreases |segs|
  {
    if |segs| > 0 {
      ResolveNames(stack + [segs[0]], segs[1..]);
      assert stack + [segs[0]] + segs[1..] == stack + segs;
    }
  }

  /** Cleaning a rooted path of names gives it back. */
  lemma CleanRooted(segs: seq<string>)
    requires AllNames(segs)
    ensures CleanPath(Rooted(segs)) == Rooted(segs)
  {
    ElementsRooted(segs);
  }

  /** The elements of a rooted path of names are those names. */
  lemma ElementsRooted(segs: seq<string>)
    requires AllNames(segs)
    ensures Elements(Rooted(segs)) == segs
  {
    var r := Rooted(segs);
    SplitRooted(segs);
    var pieces := Split(r, "/");
    PiecesHaveNoSlash(r);
    if |segs| == 0 {
      assert Resolve([], pieces) == Resolve([], [""]);
      assert Resolve([], [""]) == Resolve([], []);
    } else {
      assert pieces[1..] == segs;
      assert Resolve([], pieces) == Resolve([], segs);
      ResolveNames([], segs);
      assert [] + segs == segs;
    }
  }

  /** One more element after a slash is one more step of the walk: "" and
      "." change nothing, ".." removes the last name (none at the root), and
      a name is appended. */
  lemma ElementsStep(p: string, x: string)
    requires '/' !in x
    ensures Elements(p + "/" + x) == Step(Elements(p), x)
  {
    var pieces := Split(p, "/");
    SplitJoin(p, "/");
    JoinSnoc(pieces, x, "/");
    PiecesHaveNoSlash(p);
    ResolveSnoc([], pieces, x);
    SplitJoinedPieces(pieces + [x]);
    PiecesHaveNoSlash(p + "/" + x);
  }

  /** cleanPath of a rooted path with one more element is the cleaned
      prefix with that element's step applied. */
  lemma CleanPathStep(p: string, x: string)
    requires |p| > 0 && p[0] == '/' && '/' !in x
    ensures CleanPath(p + "/" + x) == Rooted(Step(Elements(p), x))
  {
    ElementsStep(p, x);
  }

  /** cleanPath of a rooted path of names with one more element. */
  lemma CleanRootedStep(segs: seq<string>, x: string)
    requires AllNames(segs) && '/' !in x
    ensures CleanPath(Rooted(segs) + "/" + x) == Rooted(Step(segs, x))
  {
    ElementsRooted(segs);
    CleanPathStep(Rooted(segs), x);
  }

  /** ".." removes the last name: cleanPath("/a/b/..") == "/a". */
  lemma CleanPathParent(segs: seq<string>, name: string)
    requires AllNames(segs) && IsName(name)
    ensures AllNames(segs + [name])
    ensures CleanPath(Rooted(segs + [name]) + "/..") == Rooted(segs)
  {
    var all := segs + [name];
    assert forall k :: 0 <= k < |all| ==> all[k] == (if k < |segs| then segs[k] else name);
    CleanRootedStep(all, "..");
    assert Rooted(all) + "/" + ".." == Rooted(all) + "/..";
    assert Step(all, "..") == all[..|all| - 1] == segs;
  }

  /** ".." at the root stays at the root: cleanPath("/..") == "/". */
  lemma CleanPathRootParent()
    ensures CleanPath("/..") == "/"
  {
    ElementsStep("", "..");
    assert "" + "/" + ".." == "/..";
    assert Split("", "/") == [""] by {
      SplitStep("", "/");
    }
    PiecesHaveNoSlash("");
    assert Elements("") == Resolve(Step([], ""), []);
  }

  /** A trailing "." is dropped: cleanPath("/a/.") == "/a". */
  lemma CleanPathDot(segs: seq<string>)
    requires AllNames(segs)
    ensures CleanPath(Rooted(segs) + "/.") == Rooted(segs)
  {
    CleanRootedStep(segs, ".");
    assert Rooted(segs) + "/" + "." == Rooted(segs) + "/.";
    assert Step(segs, ".") == segs;
  }

  /** A doubled slash collapses: cleanPath("/a//b") == "/a/b". */
  lemma CleanPathDoubleSlash(segs: seq<string>, name: string)
    requires AllNames(segs) && IsName(name)
    ensures AllNames(segs + [name])
    ensures CleanPath(Rooted(segs) + "//" + name) == Rooted(segs + [name])
  {
    var all := segs + [name];
    assert forall k :: 0 <= k < |all| ==> all[k] == (if k < |segs| then segs[k] else name);
    var r := Rooted(segs);
    var q := r + "/" + "";
    ElementsRooted(segs);
    ElementsStep(r, "");
    assert Step(segs, "") == segs;
    ElementsStep(q, name);
    assert Step(segs, name) == all;
    DoubleSlashShape(r, name);
    CleanPathStep(q, name);
  }

  lemma DoubleSlashShape(r: string, name: string)
    requires |r| > 0
    ensures (r + "/" + "")[0] == r[0]
    ensures r + "/" + "" + "/" + name == r + "//" + name
  {
  }

  /** cleanPath is idempotent. */
  lemma CleanPathIdempotent(p: string)
    ensures CleanPath(CleanPath(p)) == CleanPath(p)
  {
    if p != "" {
      CleanRooted(Elements(if p[0] != '/' then "/" + p else p));
    } else {
      CleanRooted([]);
    }
  }

  /** Every element of a cleaned path is a proper name: no empty element,
      no "." and no "..". */
  lemma CleanPathElements(p: string)
    ensures var pieces := Split(CleanPath(p), "/");
            && pieces[0] == ""
            && (CleanPath(p) == "/" ==> pieces == ["", ""])
            && (CleanPath(p) != "/" ==> AllNames(pieces[1..]))
  {
    var segs := if p == "" then [] else Elements(if p[0] != '/' then "/" + p else p);
    assert CleanPath(p) == Rooted(segs);
    SplitRooted(segs);
    if |segs| > 0 {
      assert ([""] + segs)[1..] == segs;
      JoinShape(segs);
    }
  }
}

=== FILE: router.dfy ===
/**
 Handler selection on the event bus (wechat/events.go): the handler table is
 keyed by cleaned paths, an event goes to the registered pattern that is the
 longest literal prefix of its path, and the dispatch loop ends at the
 reserved stop path. Handlers are opaque identities.
 */
module Router {
  import opened Wrappers
  import opened Strings
  import opened Paths
  import opened Events

  type HandlerId = nat

  /** isPathMatch: a non-empty pattern matches every path it is a literal
      prefix of; matching ignores path-segment boundaries. */
  function IsPathMatch(pattern: string, path: string): (b: bool)
    ensures b <==> pattern != "" && exists rest :: path == pattern + rest
  {
    var n := |pattern|;
    if n == 0 then false
    else
      var b := |path| >= n && path[0..n] == pattern;
      assert b ==> path == pattern + path[n..];
      b
  }

  /** Matching is not segment aware: "/msg" also matches "/msgx". */
  lemma MatchIgnoresSegments()
    ensures IsPathMatch("/msg", "/msgx")
    ensures IsPathMatch("/msg", "/msg/solo")
    ensures !IsPathMatch("", "/msg")
    ensures !IsPathMatch("/msg/solo", "/msg")
  {
    assert "/msgx" == "/msg" + "x";
    assert "/msg/solo" == "/msg" + "/solo";
  }

  /** Some registered pattern matches the path. */
  predicate Routable(mux: map<string, HandlerId>, path: string) {
    exists m :: m in mux && IsPathMatch(m, path)
  }

  /** `pattern` is a registered match with no longer registered match. */
  predicate IsLongestMatch(mux: map<string, HandlerId>, path: string, pattern: string) {
    && pattern in mux && IsPathMatch(pattern, path)
    && forall m :: m in mux && IsPathMatch(m, path) ==> |m| <= |pattern|
  }

  /** findMatch: the Go code scans the table in map order, so the scan is
      modelled by drawing the keys in an arbitrary order. */
  method FindMatch(mux: map<string, HandlerId>, path: string) returns (pattern: string)
    ensures pattern == "" <==> !Routable(mux, path)
    ensures pattern != "" ==> IsLongestMatch(mux, path, pattern)
  {
    var n := -1;
    pattern := "";
    var rest := mux.Keys;
    while rest != {}
      invariant rest <= mux.Keys
      invariant pattern == "" ==> n == -1
      invariant pattern != "" ==> n == |pattern| && pattern in mux && IsPathMatch(pattern, path)
      invariant forall m :: m in mux.Keys - rest && IsPathMatch(m, path) ==> |m| <= n
      decreases rest
    {
      var m :| m in rest;
      rest := rest - {m};
      if IsPathMatch(m, path) && |m| > n {
        pattern := m;
        n := |m|;
      }
    }
  }

  /** The map order cannot change the winner: two registered patterns of
      the same length that both prefix the path are the same pattern. */
  lemma LongestMatchUnique(mux: map<string, HandlerId>, path: string, p: string, q: string)
    requires IsLongestMatch(mux, path, p) && IsLongestMatch(mux, path, q)
    ensures p == q
  {
    assert |p| == |q|;
    assert p == path[..|p|];
    assert q == path[..|q|];
  }

  /** Handle: the handler is stored under the cleaned path. */
  function Handle(mux: map<string, HandlerId>, path: string, h: HandlerId): (r: map<string, HandlerId>)
    ensures r.Keys == mux.Keys + {CleanPath(path)}
    ensures r[CleanPath(path)] == h
    ensures forall k :: k in mux && k != CleanPath(path) ==> r[k] == mux[k]
  {
    mux[CleanPath(path) := h]
  }

  /** Registering a path equivalent to an earlier one replaces the earlier
      handler: the table is as if only the later call had been made. */
  lemma HandleEquivalentOverwrites(mux: map<string, HandlerId>, p1: string, h1: HandlerId, p2: string, h2: HandlerId)
    requires CleanPath(p1) == CleanPath(p2)
    ensures Handle(Handle(mux, p1, h1), p2, h2) == Handle(mux, p2, h2)
  {
  }

  /** Registering under an already cleaned path changes nothing. */
  lemma HandleCleaned(mux: map<string, HandlerId>, p: string, h: HandlerId)
    ensures Handle(mux, CleanPath(p), h) == Handle(mux, p, h)
  {
    CleanPathIdempotent(p);
  }

  /** Every key of the table is a fixed point of cleanPath. */
  predicate CleanKeys(mux: map<string, HandlerId>) {
    forall k :: k in mux ==> CleanPath(k) == k
  }

  /** Handle keeps every key of the table clean. */
  lemma HandleKeepsKeysClean(mux: map<string, HandlerId>, p: string, h: HandlerId)
    requires CleanKeys(mux)
    ensures CleanKeys(Handle(mux, p, h))
  {
    CleanPathIdempotent(p);
  }

  /** The events the dispatch loop receives before the first stop event. */
  function BeforeStop(stream: seq<Event>): (r: seq<Event>)
    ensures r <= stream
    ensures forall k :: 0 <= k < |r| ==> r[k].path != StopPath
    ensures |r| < |stream| ==> stream[|r|].path == StopPath
  {
    if |stream| == 0 || stream[0].path == StopPath then []
    else [stream[0]] + BeforeStop(stream[1..])
  }

  /** One dispatch: the event and the handler it is given, if any. */
  datatype Dispatch = Dispatch(event: Event, handler: Option<HandlerId>)

  /** The dispatch gives the event to the handler of its longest matching
      pattern, and to no handler exactly when no pattern matches. */
  ghost predicate RoutedBy(mux: map<string, HandlerId>, d: Dispatch) {
    && (d.handler.None? <==> !Routable(mux, d.event.path))
    && (d.handler.Some? ==> exists p :: IsLongestMatch(mux, d.event.path, p) && d.handler.value == mux[p])
  }

  /** One turn of the loop: look the handler up on the raw path. */
  method Route(mux: map<string, HandlerId>, e: Event) returns (d: Dispatch)
    ensures d.event == e && RoutedBy(mux, d)
  {
    var pattern := FindMatch(mux, e.path);
    var handler := if pattern != "" then Some(mux[pattern]) else None;
    d := Dispatch(e, handler);
  }

  /** The loop of `Go`: every event before the first stop event is routed on
      its path as received (dispatch does not clean it), and the loop returns
      at the stop event. */
  method Run(mux: map<string, HandlerId>, stream: seq<Event>) returns (ds: seq<Dispatch>)
    ensures |ds| == |BeforeStop(stream)|
    ensures forall k :: 0 <= k < |ds| ==> ds[k].event == stream[k] && RoutedBy(mux, ds[k])
  {
    var before := BeforeStop(stream);
    ds := [];
    var i := 0;
    while i < |before|
      invariant i <= |before| && |ds| == i
      invariant forall k :: 0 <= k < i ==> ds[k].event == stream[k] && RoutedBy(mux, ds[k])
    {
      var d := Route(mux, stream[i]);
      ds := ds + [d];
      i := i + 1;
    }
  }

  /** "msg/solo" cleans to "/msg/solo". */
  lemma CleanMsgSolo()
    ensures CleanPath("msg/solo") == "/msg/solo"
  {
    var segs := ["msg", "solo"];
    assert AllNames(segs) by {
      assert IsName(segs[0]) && IsName(segs[1]);
    }
    assert Join(segs, "/") == "msg/solo" by {
      assert Join(segs[1..], "/") == "solo";
    }
    CleanRooted(segs);
    assert "/" + "msg/solo" == "/msg/solo";
  }

  /** Because dispatch routes the raw path, an event whose path is not in
      clean form can miss a handler its cleaned path would reach. */
  lemma RawPathNotCleaned(h: HandlerId)
    ensures Routable(map["/msg" := h], CleanPath("msg/solo"))
    ensures !Routable(map["/msg" := h], "msg/solo")
  {
    CleanMsgSolo();
    MatchIgnoresSegments();
    assert "msg/solo"[0] != "/msg"[0];
    assert IsPathMatch("/msg", CleanPath("msg/solo"));
  }
}

=== FILE: strings.dfy ===
/**
 The Go standard-library string operations the modelled code relies on
 (strings.Index, strings.Split, strings.Replace, strings.TrimSpace,
 strings.LastIndex, path.Base, strconv.Itoa, strconv.Atoi), written out over
 `seq<char>`, plus the repository's own `search` extractor.
 */
module Strings {
  import opened Wrappers

  /** `sub` occurs in `s` starting at index `i`. */
  predicate OccursAt(s: string, sub: string, i: int) {
    0 <= i && i + |sub| <= |s| && s[i..i + |sub|] == sub
  }

  /** `i` is the first index at which `sub` occurs in `s`. */
  predicate FirstOccurrence(s: string, sub: string, i: int) {
    OccursAt(s, sub, i) && forall j :: 0 <= j < i ==> !OccursAt(s, sub, j)
  }

  /** `sub` occurs nowhere in `s`. */
  predicate Absent(s: string, sub: string) {
    forall j :: 0 <= j <= |s| ==> !OccursAt(s, sub, j)
  }

  predicate HasPrefix(s: string, prefix: string) {
    prefix <= s
  }

  predicate HasSuffix(s: string, suffix: string) {
    |suffix| <= |s| && s[|s| - |suffix|..] == suffix
  }

  /** An occurrence in a suffix of `s` is an occurrence in `s`, shifted. */
  lemma ShiftOccurs(s: string, sub: string, start: nat, j: int)
    requires start <= |s| && j >= 0
    ensures OccursAt(s[start..], sub, j) <==> OccursAt(s, sub, start + j)
  {
    if j + |sub| <= |s| - start {
      assert s[start..][j..j + |sub|] == s[start + j..start + j + |sub|];
    }
  }

  /** strings.Index: the first index of `sub` in `s`, or -1. */
  function IndexOf(s: string, sub: string): (r: int)
    ensures r == -1 || FirstOccurrence(s, sub, r)
    ensures r == -1 <==> Absent(s, sub)
  {
    IndexFrom(s, sub, 0)
  }

  /** The first index at or after `start` where `sub` occurs in `s`, or -1. */
  function IndexFrom(s: string, sub: string, start: nat): (r: int)
    requires start <= |s|
    ensures r == -1 || (start <= r && OccursAt(s, sub, r))
    ensures forall j :: start <= j < (if r == -1 then |s| + 1 else r) ==> !OccursAt(s, sub, j)
    decreases |s| - start
  {
    if start + |sub| > |s| then -1
    else if s[start..start + |sub|] == sub then start
    else IndexFrom(s, sub, start + 1)
  }

  /** The first occurrence is unique, so IndexOf finds it. */
  lemma FirstOccurrenceUnique(s: string, sub: string, i: int, j: int)
    requires FirstOccurrence(s, sub, i)
    requires j == -1 || FirstOccurrence(s, sub, j)
    requires j == -1 <==> Absent(s, sub)
    ensures i == j
  {
    assert !Absent(s, sub) by {
      assert OccursAt(s, sub, i);
    }
  }

  /** strings.Contains. */
  predicate Contains(s: string, sub: string) {
    IndexOf(s, sub) >= 0
  }

  lemma ContainsIff(s: string, sub: string)
    ensures Contains(s, sub) <==> exists i :: OccursAt(s, sub, i)
  {
  }

  /** strings.LastIndex with a one-character needle: the last index of `c`, or -1. */
  function LastIndexOf(s: string, c: char): (r: int)
    ensures r >= -1
    ensures r == -1 <==> c !in s
    ensures r >= 0 ==> r < |s| && s[r] == c && forall j :: r < j < |s| ==> s[j] != c
  {
    if |s| == 0 then -1
    else if s[|s| - 1] == c then |s| - 1
    else LastIndexOf(s[..|s| - 1], c)
  }

  /** strings.Split with a non-empty separator: the pieces between the
      non-overlapping occurrences of `sep`, found left to right. */
  function Split(s: string, sep: string): (r: seq<string>)
    requires |sep| > 0
    ensures |r| >= 1
    decreases |s|
  {
    var i := IndexOf(s, sep);
    if i == -1 then [s] else [s[..i]] + Split(s[i + |sep|..], sep)
  }

  /** No piece of a split contains the separator. */
  lemma {:induction false} SplitPiecesAbsent(s: string, sep: string)
    requires |sep| > 0
    ensures forall k :: 0 <= k < |Split(s, sep)| ==> Absent(Split(s, sep)[k], sep)
    decreases |s|
  {
    var i := IndexOf(s, sep);
    SplitStep(s, sep);
    if i == -1 {
      assert Split(s, sep) == [s];
    } else {
      var rest := s[i + |sep|..];
      SplitPiecesAbsent(rest, sep);
      BeforeFirstAbsent(s, sep, i);
      var r := Split(s, sep);
      var tail := Split(rest, sep);
      assert r == [s[..i]] + tail;
      forall k | 0 <= k < |r| ensures Absent(r[k], sep) {
        if k > 0 {
          assert r[k] == tail[k - 1];
        }
      }
    }
  }

  /** The text before the first occurrence does not contain it. */
  lemma BeforeFirstAbsent(s: string, sub: string, i: int)
    requires |sub| > 0 && FirstOccurrence(s, sub, i)
    ensures Absent(s[..i], sub)
  {
    var head := s[..i];
    forall j | 0 <= j <= |head| ensures !OccursAt(head, sub, j) {
      if OccursAt(head, sub, j) {
        assert s[j..j + |sub|] == head[j..j + |sub|];
        assert OccursAt(s, sub, j);
      }
    }
  }

  /** strings.Join: the pieces with `sep` between consecutive ones. */
  function Join(parts: seq<string>, sep: string): string {
    if |parts| == 0 then ""
    else if |parts| == 1 then parts[0]
    else parts[0] + sep + Join(parts[1..], sep)
  }

  lemma JoinCons(x: string, tail: seq<string>, sep: string)
    requires |tail| >= 1
    ensures Join([x] + tail, sep) == x + sep + Join(tail, sep)
  {
    assert ([x] + tail)[1..] == tail;
  }

  /** Joining one more piece appends the separator and the piece. */
  lemma {:induction false} JoinSnoc(parts: seq<string>, x: string, sep: string)
    requires |parts| >= 1
    ensures Join(parts + [x], sep) == Join(parts, sep) + sep + x
    decreases |parts|
  {
    if |parts| == 1 {
      assert parts + [x] == [parts[0]] + [x];
      JoinCons(parts[0], [x], sep);
    } else {
      assert parts + [x] == [parts[0]] + (parts[1..] + [x]);
      JoinCons(parts[0], parts[1..] + [x], sep);
      JoinSnoc(parts[1..], x, sep);
    }
  }

  lemma Reassemble(s: string, i: nat, sep: string)
    requires OccursAt(s, sep, i)
    ensures s == s[..i] + sep + s[i + |sep|..]
  {
    assert s[i..] == s[i..i + |sep|] + s[i + |sep|..];
    assert s == s[..i] + s[i..];
  }

  lemma JoinStep(s: string, i: nat, sep: string, tail: seq<string>)
    requires OccursAt(s, sep, i)
    requires |tail| >= 1 && Join(tail, sep) == s[i + |sep|..]
    ensures Join([s[..i]] + tail, sep) == s
  {
    var head, rest := s[..i], s[i + |sep|..];
    JoinCons(head, tail, sep);
    Reassemble(s, i, sep);
  }

  /** One step of Split: the text before the first separator, then the
      split of the rest; or the whole text when there is no separator. */
  lemma SplitStep(s: string, sep: string)
    requires |sep| > 0
    ensures var i := IndexOf(s, sep);
            Split(s, sep) == if i == -1 then [s] else [s[..i]] + Split(s[i + |sep|..], sep)
  {
  }

  /** Splitting and re-joining on the same separator gives back the input. */
  lemma {:induction false} SplitJoin(s: string, sep: string)
    requires |sep| > 0
    ensures Join(Split(s, sep), sep) == s
    decreases |s|
  {
    var i := IndexOf(s, sep);
    SplitStep(s, sep);
    if i != -1 {
      var rest := s[i + |sep|..];
      SplitJoin(rest, sep);
      JoinStep(s, i, sep, Split(rest, sep));
    }
  }

  /** A split into exactly two pieces happens exactly when `sep` occurs once:
      the input is the first piece, the separator and the second piece. */
  lemma SplitInTwo(s: string, sep: string)
    requires |sep| > 0
    requires |Split(s, sep)| == 2
    ensures s == Split(s, sep)[0] + sep + Split(s, sep)[1]
    ensures FirstOccurrence(s, sep, |Split(s, sep)[0]|)
    ensures Absent(Split(s, sep)[0], sep) && Absent(Split(s, sep)[1], sep)
  {
    var i := SplitTwoPieces(s, sep);
    Reassemble(s, i, sep);
    SplitPiecesAbsent(s, sep);
  }

  /** The two pieces of a split into two, and where the separator is. */
  lemma SplitTwoPieces(s: string, sep: string) returns (i: nat)
    requires |sep| > 0
    requires |Split(s, sep)| == 2
    ensures i == IndexOf(s, sep) && FirstOccurrence(s, sep, i)
    ensures Split(s, sep) == [s[..i], s[i + |sep|..]]
  {
    SplitFound(s, sep);
    i := IndexOf(s, sep);
    SplitSingle(s[i + |sep|..], sep);
  }

  /** A split into several pieces found the separator. */
  lemma SplitFound(s: string, sep: string)
    requires |sep| > 0 && |Split(s, sep)| >= 2
    ensures IndexOf(s, sep) >= 0
    ensures Split(s, sep) == [s[..IndexOf(s, sep)]] + Split(s[IndexOf(s, sep) + |sep|..], sep)
  {
    SplitStep(s, sep);
  }

  /** A split into one piece is the whole text. */
  lemma SplitSingle(s: string, sep: string)
    requires |sep| > 0 && |Split(s, sep)| == 1
    ensures Split(s, sep) == [s]
  {
    SplitStep(s, sep);
  }

  /** strings.Replace(s, pat, rep, -1) with a non-empty pattern `pat`: every
      non-overlapping occurrence, found left to right, is replaced. */
  function ReplaceAll(s: string, pat: string, rep: string): (r: string)
    requires |pat| > 0
    ensures |rep| == |pat| ==> |r| == |s|
    ensures |rep| <= |pat| ==> |r| <= |s|
    decreases |s|
  {
    if |s| == 0 then ""
    else if pat <= s then rep + ReplaceAll(s[|pat|..], pat, rep)
    else [s[0]] + ReplaceAll(s[1..], pat, rep)
  }

  /** Replacing every occurrence is splitting on the pattern and joining the
      pieces with the replacement, as strings.Replace and the
      Split/Join pair agree in Go. */
  lemma {:induction false} ReplaceAllSplitJoin(s: string, pat: string, rep: string)
    requires |pat| > 0
    ensures ReplaceAll(s, pat, rep) == Join(Split(s, pat), rep)
    decreases |s|
  {
    SplitStep(s, pat);
    if |s| == 0 {
      assert !OccursAt(s, pat, 0);
      assert Split(s, pat) == [s];
    } else if pat <= s {
      var rest := s[|pat|..];
      assert s == pat + rest;
      IndexOfAtStart(pat, rest);
      ReplaceAllSplitJoin(rest, pat, rep);
      assert Split(s, pat) == [""] + Split(rest, pat);
      JoinCons("", Split(rest, pat), rep);
    } else {
      ReplaceAllSplitJoin(s[1..], pat, rep);
      SplitAfterMiss(s, pat);
      JoinPrepend(s[0], Split(s[1..], pat), rep);
    }
  }

  /** When `sub` is not at the start, the first occurrence in `s` is one
      past the first occurrence in `s[1..]`, and both are missing together. */
  lemma IndexAfterMiss(s: string, sub: string)
    requires |sub| > 0 && |s| > 0 && !(sub <= s)
    ensures var j := IndexOf(s[1..], sub);
            IndexOf(s, sub) == if j == -1 then -1 else j + 1
  {
    var i, j := IndexOf(s, sub), IndexOf(s[1..], sub);
    assert !OccursAt(s, sub, 0);
    if j == -1 {
      forall m | 0 <= m <= |s| ensures !OccursAt(s, sub, m) {
        if m > 0 {
          ShiftOccurs(s, sub, 1, m - 1);
        }
      }
    } else {
      ShiftOccurs(s, sub, 1, j);
      forall m | 0 <= m < j + 1 ensures !OccursAt(s, sub, m) {
        if m > 0 {
          ShiftOccurs(s, sub, 1, m - 1);
        }
      }
      assert FirstOccurrence(s, sub, j + 1);
    }
  }

  /** When `sep` is not at the start, the split of `s` is the split of
      `s[1..]` with the first character put back on the first piece. */
  lemma SplitAfterMiss(s: string, sep: string)
    requires |sep| > 0 && |s| > 0 && !(sep <= s)
    ensures var p := Split(s[1..], sep);
            Split(s, sep) == [[s[0]] + p[0]] + p[1..]
  {
    var t := s[1..];
    IndexAfterMiss(s, sep);
    var j := IndexOf(t, sep);
    if j == -1 {
      SplitStep(s, sep);
      SplitStep(t, sep);
      assert [s[0]] + t == s;
    } else {
      SplitAfterMissFound(s, sep, j);
    }
  }

  lemma SplitAfterMissFound(s: string, sep: string, j: int)
    requires |sep| > 0 && |s| > 0 && j >= 0
    requires j == IndexOf(s[1..], sep) && IndexOf(s, sep) == j + 1
    ensures var p := Split(s[1..], sep);
            Split(s, sep) == [[s[0]] + p[0]] + p[1..]
  {
    var t := s[1..];
    var rest := SplitAt(s, sep, j + 1);
    var rest' := SplitAt(t, sep, j);
    TailSlices(s, j, j + |sep|);
    assert rest' == rest;
    FirstPieceShape(s, j, Split(s, sep), Split(t, sep), Split(rest, sep));
  }

  /** Slices of `s[1..]` are slices of `s` shifted by one. */
  lemma TailSlices(s: string, j: nat, m: nat)
    requires |s| > 0 && j <= m <= |s| - 1
    ensures s[1..][m..] == s[m + 1..]
    ensures [s[0]] + s[1..][..j] == s[..j + 1]
  {
  }

  /** A list of pieces whose first piece is one character longer than the
      first piece of another list with the same tail. */
  lemma FirstPieceShape(s: string, j: nat, whole: seq<string>, shifted: seq<string>, pieces: seq<string>)
    requires |s| > 0 && j <= |s| - 1
    requires whole == [s[..j + 1]] + pieces && shifted == [s[1..][..j]] + pieces
    ensures whole == [[s[0]] + shifted[0]] + shifted[1..]
  {
    assert [s[0]] + s[1..][..j] == s[..j + 1];
    assert shifted[0] == s[1..][..j] && shifted[1..] == pieces;
  }

  /** Split at a known first occurrence: the piece before it, then the
      split of the text after it. */
  lemma SplitAt(s: string, sep: string, i: int) returns (rest: string)
    requires |sep| > 0 && i >= 0 && i == IndexOf(s, sep)
    ensures i + |sep| <= |s| && rest == s[i + |sep|..]
    ensures Split(s, sep) == [s[..i]] + Split(rest, sep)
  {
    assert OccursAt(s, sep, i);
    rest := s[i + |sep|..];
    SplitStep(s, sep);
  }

  /** Putting a character in front of the first piece puts it in front of
      the joined text. */
  lemma JoinPrepend(c: char, parts: seq<string>, sep: string)
    requires |parts| >= 1
    ensures Join([[c] + parts[0]] + parts[1..], sep) == [c] + Join(parts, sep)
  {
    if |parts| > 1 {
      JoinCons([c] + parts[0], parts[1..], sep);
      assert Join(parts, sep) == parts[0] + sep + Join(parts[1..], sep);
    }
  }

  /** No character of `rep` appears in `pat`. */
  predicate Disjoint(rep: string, pat: string) {
    forall k :: 0 <= k < |rep| ==> rep[k] !in pat
  }

  /** A prefix made only of characters of `pat` that a replaced string
      starts with was already a prefix of the original. */
  lemma {:induction false} ReplacePreservesOldPrefix(t: string, pat: string, rep: string, w: string)
    requires |pat| > 0 && |rep| > 0 && Disjoint(rep, pat)
    requires forall k :: 0 <= k < |w| ==> w[k] in pat
    ensures w <= ReplaceAll(t, pat, rep) ==> w <= t
    decreases |t|
  {
    if |w| > 0 && |t| > 0 {
      var r := ReplaceAll(t, pat, rep);
      if pat <= t {
        assert r == rep + ReplaceAll(t[|pat|..], pat, rep);
        assert r[0] == rep[0] && rep[0] !in pat && w[0] in pat;
        assert !(w <= r);
      } else {
        assert r == [t[0]] + ReplaceAll(t[1..], pat, rep);
        ReplacePreservesOldPrefix(t[1..], pat, rep, w[1..]);
        if w <= r {
          assert w[1..] <= ReplaceAll(t[1..], pat, rep);
          assert w == [t[0]] + w[1..];
        }
      }
    }
  }

  /** Replacing with a non-empty text that shares no character with `pat`
      leaves no occurrence of `pat` behind. */
  lemma {:induction false} ReplaceAllRemoves(s: string, pat: string, rep: string)
    requires |pat| > 0 && |rep| > 0 && Disjoint(rep, pat)
    ensures Absent(ReplaceAll(s, pat, rep), pat)
    decreases |s|
  {
    if |s| > 0 {
      var r := ReplaceAll(s, pat, rep);
      if pat <= s {
        var rest := ReplaceAll(s[|pat|..], pat, rep);
        ReplaceAllRemoves(s[|pat|..], pat, rep);
        assert r == rep + rest;
        forall j | 0 <= j <= |r| ensures !OccursAt(r, pat, j) {
          if j < |rep| {
            assert r[j] == rep[j] && rep[j] !in pat;
          } else {
            assert r[|rep|..] == rest;
            ShiftOccurs(r, pat, |rep|, j - |rep|);
          }
        }
      } else {
        var rest := ReplaceAll(s[1..], pat, rep);
        ReplaceAllRemoves(s[1..], pat, rep);
        ReplacePreservesOldPrefix(s[1..], pat, rep, pat[1..]);
        assert r == [s[0]] + rest;
        forall j | 0 <= j <= |r| ensures !OccursAt(r, pat, j) {
          if j > 0 {
            assert r[1..] == rest;
            ShiftOccurs(r, pat, 1, j - 1);
          }
        }
      }
    }
  }

  /** Text without the pattern comes back unchanged. */
  lemma {:induction false} ReplaceAllAbsent(s: string, pat: string, rep: string)
    requires |pat| > 0 && Absent(s, pat)
    ensures ReplaceAll(s, pat, rep) == s
    decreases |s|
  {
    if |s| > 0 {
      assert !OccursAt(s, pat, 0);
      forall j | 0 <= j <= |s[1..]| ensures !OccursAt(s[1..], pat, j) {
        ShiftOccurs(s, pat, 1, j);
      }
      ReplaceAllAbsent(s[1..], pat, rep);
      assert s == [s[0]] + s[1..];
    }
  }

  /** Replacing never introduces a character found neither in the input
      nor in the replacement. */
  lemma {:induction false} ReplaceAllKeepsOut(s: string, pat: string, rep: string, c: char)
    requires |pat| > 0 && c !in s && c !in rep
    ensures c !in ReplaceAll(s, pat, rep)
    decreases |s|
  {
    if |s| > 0 {
      if pat <= s {
        ReplaceAllKeepsOut(s[|pat|..], pat, rep, c);
      } else {
        ReplaceAllKeepsOut(s[1..], pat, rep, c);
      }
    }
  }

  /** A one-character needle is absent exactly when the character is. */
  lemma CharAbsent(s: string, c: char)
    ensures Absent(s, [c]) <==> c !in s
  {
    if c in s {
      var j :| 0 <= j < |s| && s[j] == c;
      assert s[j..j + 1] == [c];
      assert OccursAt(s, [c], j);
    } else {
      forall j | 0 <= j <= |s| ensures !OccursAt(s, [c], j) {
        if j < |s| {
          assert s[j..j + 1] == [s[j]];
        }
      }
    }
  }

  /** strings.TrimSuffix. */
  function TrimSuffix(s: string, suffix: string): (r: string)
    ensures HasSuffix(s, suffix) ==> r + suffix == s
    ensures !HasSuffix(s, suffix) ==> r == s
  {
    if HasSuffix(s, suffix) then
      var r := s[..|s| - |suffix|];
      assert r + suffix == s;
      r
    else s
  }

  /** unicode.IsSpace: the Unicode White_Space characters. */
  predicate IsSpace(c: char) {
    ('\t' <= c <= '\r') || c == ' ' || c == '\U{0085}' || c == '\U{00A0}' || c == '\U{1680}'
    || ('\U{2000}' <= c <= '\U{200A}') || c == '\U{2028}' || c == '\U{2029}' || c == '\U{202F}'
    || c == '\U{205F}' || c == '\U{3000}'
  }

  /** The number of leading characters of `s` satisfying `sp`. */
  function LeadingRun(s: string, sp: char -> bool): (n: nat)
    ensures n <= |s|
    ensures forall k :: 0 <= k < n ==> sp(s[k])
    ensures n < |s| ==> !sp(s[n])
  {
    if |s| > 0 && sp(s[0]) then 1 + LeadingRun(s[1..], sp) else 0
  }

  /** The number of trailing characters of `s` satisfying `sp`. */
  function TrailingRun(s: string, sp: char -> bool): (n: nat)
    ensures n <= |s|
    ensures forall k :: |s| - n <= k < |s| ==> sp(s[k])
    ensures n < |s| ==> !sp(s[|s| - n - 1])
  {
    if |s| > 0 && sp(s[|s| - 1]) then 1 + TrailingRun(s[..|s| - 1], sp) else 0
  }

  /** `s` without its leading and trailing run of characters satisfying
      `sp`. */
  function TrimRun(s: string, sp: char -> bool): (r: string)
    ensures exists i, j :: 0 <= i <= j <= |s| && r == s[i..j]
              && (forall k :: 0 <= k < i ==> sp(s[k]))
              && (forall k :: j <= k < |s| ==> sp(s[k]))
    ensures |r| > 0 ==> !sp(r[0]) && !sp(r[|r| - 1])
  {
    var i := LeadingRun(s, sp);
    var t := s[i..];
    var n := TrailingRun(t, sp);
    var j := i + |t| - n;
    forall k | j <= k < |s| ensures sp(s[k]) {
      assert s[k] == t[k - i];
    }
    var r := s[i..j];
    assert |r| > 0 ==> r[0] == t[0] && r[|r| - 1] == t[|t| - n - 1];
    r
  }

  /** strings.TrimSpace: `s` without its leading and trailing white space. */
  function TrimSpace(s: string): (r: string)
    ensures exists i, j :: 0 <= i <= j <= |s| && r == s[i..j]
              && (forall k :: 0 <= k < i ==> IsSpace(s[k]))
              && (forall k :: j <= k < |s| ==> IsSpace(s[k]))
    ensures |r| > 0 ==> !IsSpace(r[0]) && !IsSpace(r[|r| - 1])
  {
    TrimRun(s, IsSpace)
  }

  /** path.Base: the last element of a slash-separated path; "." for the
      empty path and "/" for a path made only of slashes. */
  function Base(p: string): (r: string)
    ensures |r| > 0
    ensures p == "" ==> r == "."
    ensures r == "/" || forall k :: 0 <= k < |r| ==> r[k] != '/'
  {
    if p == "" then "."
    else
      var q := StripTrailingSlashes(p);
      if |q| == 0 then "/"
      else
        var i := LastIndexOf(q, '/');
        q[i + 1..]
  }

  function StripTrailingSlashes(p: string): (r: string)
    ensures |r| <= |p|
    ensures |r| > 0 ==> r[|r| - 1] != '/'
  {
    if |p| > 0 && p[|p| - 1] == '/' then StripTrailingSlashes(p[..|p| - 1]) else p
  }

  lemma BaseOfPlainName(name: string)
    requires name != "" && '/' !in name
    ensures Base(name) == name
  {
  }

  /** The base of "dir/name" is the name. */
  lemma BaseOfJoin(dir: string, name: string)
    requires name != "" && '/' !in name
    ensures Base(dir + "/" + name) == name
  {
    var p := dir + "/" + name;
    assert p[|p| - 1] == name[|name| - 1];
    assert StripTrailingSlashes(p) == p;
    var i := LastIndexOf(p, '/');
    assert p[|dir|] == '/';
    assert forall j :: |dir| < j < |p| ==> p[j] == name[j - |dir| - 1];
    assert i == |dir|;
    assert p[i + 1..] == name;
  }

  /** The decimal digit character of `d`. */
  function DigitChar(d: nat): (c: char)
    requires d < 10
    ensures IsDigit(c) && DigitValue(c) == d
  {
    ('0' as int + d) as char
  }

  predicate IsDigit(c: char) {
    '0' <= c <= '9'
  }

  function DigitValue(c: char): (d: nat)
    requires IsDigit(c)
    ensures d < 10
  {
    (c as int - '0' as int) as nat
  }

  /** strconv.Itoa on a non-negative number: its decimal digits. */
  function Itoa(n: nat): (r: string)
    ensures |r| >= 1
    ensures forall k :: 0 <= k < |r| ==> IsDigit(r[k])
    ensures r[0] == '0' ==> n == 0
  {
    if n < 10 then [DigitChar(n)] else Itoa(n / 10) + [DigitChar(n % 10)]
  }

  /** The value of a string of decimal digits. */
  function DecimalValue(s: string): nat
    requires forall k :: 0 <= k < |s| ==> IsDigit(s[k])
  {
    if |s| == 0 then 0 else 10 * DecimalValue(s[..|s| - 1]) + DigitValue(s[|s| - 1])
  }

  /** Digits only, optionally after one sign character. */
  predicate IsNumeral(s: string) {
    || (|s| > 0 && forall k :: 0 <= k < |s| ==> IsDigit(s[k]))
    || (|s| > 1 && (s[0] == '+' || s[0] == '-') && forall k :: 1 <= k < |s| ==> IsDigit(s[k]))
  }

  /** strconv.Atoi: an optional sign followed by at least one decimal digit;
      anything else is a syntax error. */
  function Atoi(s: string): (r: Option<int>)
    ensures r.None? <==> !IsNumeral(s)
  {
    if |s| > 0 && (s[0] == '+' || s[0] == '-') then
      var digits := s[1..];
      if |digits| > 0 && forall k :: 0 <= k < |digits| ==> IsDigit(digits[k]) then
        var v: int := DecimalValue(digits);
        Some(if s[0] == '-' then -v else v)
      else None
    else if |s| > 0 && forall k :: 0 <= k < |s| ==> IsDigit(s[k]) then Some(DecimalValue(s))
    else None
  }

  /** Atoi of an unsigned run of digits is its value. */
  lemma AtoiDigits(digits: string)
    requires |digits| > 0 && forall k :: 0 <= k < |digits| ==> IsDigit(digits[k])
    ensures Atoi(digits) == Some(DecimalValue(digits))
  {
    assert IsDigit(digits[0]);
  }

  /** Reading back the decimal digits of a number gives the number. */
  lemma {:induction false} DecimalValueOfItoa(n: nat)
    ensures DecimalValue(Itoa(n)) == n
  {
    if n >= 10 {
      DecimalValueOfItoa(n / 10);
      var s := Itoa(n);
      assert s[..|s| - 1] == Itoa(n / 10);
    }
  }

  /** Atoi inverts Itoa. */
  lemma AtoiItoa(n: nat)
    ensures Atoi(Itoa(n)) == Some(n)
  {
    DecimalValueOfItoa(n);
  }

  /** The numeral of `n` has more than `k` digits exactly when `n` is at least 10^k. */
  lemma {:induction false} ItoaLength(n: nat, k: nat)
    requires k >= 1
    ensures |Itoa(n)| > k <==> n >= Pow10(k)
  {
    var p := Pow10(k - 1);
    assert Pow10(k) == 10 * p;
    if n >= 10 {
      assert |Itoa(n)| == |Itoa(n / 10)| + 1;
      if k > 1 {
        ItoaLength(n / 10, k - 1);
      }
      DivTen(n, p);
    }
  }

  lemma DivTen(n: nat, p: nat)
    ensures n / 10 >= p <==> n >= 10 * p
  {
  }

  function Pow10(k: nat): (r: nat)
    ensures r >= 1
  {
    if k == 0 then 1 else 10 * Pow10(k - 1)
  }

  /** Dropping the last digit of a numeral gives the numeral of `n / 10`. */
  lemma ItoaDropLast(n: nat)
    requires n >= 10
    ensures Itoa(n)[..|Itoa(n)| - 1] == Itoa(n / 10)
  {
  }

  /** Errors of `search`: the needle that could not be found. */
  datatype SearchError = NotFound(needle: string)

  /**
   The repository's `search`: the text strictly between the first occurrence
   of `prefix` and the first occurrence of `suffix` after it.
   */
  function Search(source: string, prefix: string, suffix: string): (r: Result<string, SearchError>)
    ensures IndexOf(source, prefix) == -1 ==> r == Failure(NotFound(prefix))
    ensures r.Failure? && IndexOf(source, prefix) >= 0 ==>
              r == Failure(NotFound(suffix))
              && Absent(source[IndexOf(source, prefix) + |prefix|..], suffix)
    ensures r.Success? ==>
              var i := IndexOf(source, prefix);
              && i >= 0
              && OccursAt(source, prefix + r.value + suffix, i)
              && source[i + |prefix|..][..|r.value|] == r.value
              && FirstOccurrence(source[i + |prefix|..], suffix, |r.value|)
  {
    var index := IndexOf(source, prefix);
    if index == -1 then Failure(NotFound(prefix))
    else
      var start := index + |prefix|;
      var end := IndexOf(source[start..], suffix);
      if end == -1 then Failure(NotFound(suffix))
      else
        var value := source[start..start + end];
        ShiftOccurs(source, suffix, start, end);
        ConcatOccurs(source, prefix, value, suffix, index);
        Success(value)
  }

  /** Three adjacent occurrences make one occurrence of the concatenation. */
  lemma ConcatOccurs(s: string, a: string, b: string, c: string, i: int)
    requires OccursAt(s, a, i) && OccursAt(s, c, i + |a| + |b|)
    requires i + |a| + |b| <= |s| && s[i + |a|..i + |a| + |b|] == b
    ensures OccursAt(s, a + b + c, i)
  {
    var j := i + |a|;
    var k := j + |b|;
    SliceSplit(s, i, j, k + |c|);
    SliceSplit(s, j, k, k + |c|);
  }

  lemma SliceSplit(s: string, x: nat, y: nat, z: nat)
    requires x <= y <= z <= |s|
    ensures s[x..z] == s[x..y] + s[y..z]
  {
  }

  /** The extracted text never contains the (non-empty) suffix. */
  lemma SearchResultHasNoSuffix(source: string, prefix: string, suffix: string)
    requires |suffix| > 0
    requires Search(source, prefix, suffix).Success?
    ensures Absent(Search(source, prefix, suffix).value, suffix)
  {
    var v := Search(source, prefix, suffix).value;
    var rest := source[IndexOf(source, prefix) + |prefix|..];
    BeforeFirstAbsent(rest, suffix, |v|);
  }

  /** A text that starts with `prefix` finds it at index 0. */
  lemma IndexOfAtStart(prefix: string, t: string)
    ensures IndexOf(prefix + t, prefix) == 0
  {
    var src := prefix + t;
    assert src[0..|prefix|] == prefix;
    assert FirstOccurrence(src, prefix, 0);
    FirstOccurrenceUnique(src, prefix, 0, IndexOf(src, prefix));
  }

  /** Round trip: text placed between `prefix` and the first `suffix` after
      it, at the start of the source, is what `search` extracts. */
  lemma SearchRoundTrip(prefix: string, x: string, suffix: string, rest: string)
    requires forall j :: 0 <= j < |x| ==> !OccursAt(x + suffix, suffix, j)
    ensures Search(prefix + x + suffix + rest, prefix, suffix) == Success(x)
  {
    var t := x + suffix + rest;
    var src := prefix + t;
    assert prefix + x + suffix + rest == src;
    IndexOfAtStart(prefix, t);
    assert src[|prefix|..] == t;
    FirstSuffixAfter(x, suffix, rest);
    assert OccursAt(t, suffix, |x|);
    var r := Search(src, prefix, suffix);
    assert r.Success?;
    FirstOccurrenceUnique(t, suffix, |r.value|, IndexOf(t, suffix));
    assert t[..|x|] == x;
  }

  /** The first `suffix` in `x + suffix + rest` is the one right after `x`
      when `x + suffix` has no earlier one. */
  lemma FirstSuffixAfter(x: string, suffix: string, rest: string)
    requires forall j :: 0 <= j < |x| ==> !OccursAt(x + suffix, suffix, j)
    ensures IndexOf(x + suffix + rest, suffix) == |x|
  {
    var xs := x + suffix;
    var t := xs + rest;
    assert t[|x|..|x| + |suffix|] == suffix;
    forall j | 0 <= j < |x| ensures !OccursAt(t, suffix, j) {
      assert !OccursAt(xs, suffix, j);
      assert t[j..j + |suffix|] == xs[j..j + |suffix|];
    }
    assert FirstOccurrence(t, suffix, |x|);
    FirstOccurrenceUnique(t, suffix, |x|, IndexOf(t, suffix));
  }
}

=== FILE: wrappers.dfy ===
/** Failure-carrying wrappers shared by every module of the model. */
module Wrappers {

  /** An optional value: the Go code's "comma ok" results and nil pointers. */
  datatype Option<+T> = None | Some(value: T)

  /** A value or an error: the Go code's `(T, error)` result pairs. */
  datatype Result<+T, +E> = Success(value: T) | Failure(error: E) {

    predicate IsFailure() {
      Failure?
    }

    function PropagateFailure<U>(): Result<U, E>
      requires Failure?
    {
      Failure(error)
    }

    function Extract(): T
      requires Success?
    {
      value
    }
  }
}
